=== FILE: README.md ===
# OFBiz UtilMisc helpers and the flexible-string expander, in Dafny

This project models two pure, sequential parts of the Apache OFBiz base framework and proves
properties of them.

1. **The deterministic helpers of `UtilMisc`**:
   - `toMap`, the key/value literal builder;
   - the two `compare` overloads;
   - `collectionToString`;
   - the insertion-ordered set builders (`toSet`, `toSetArray`, `toSet(Collection)`,
     `collectionToSet`) and the list builders (`toList`, `toListArray`);
   - the serializability filters for maps and array lists;
   - the get-or-create helpers for maps of collections;
   - the `BigDecimal` accumulator;
   - the integer coercions;
   - `parseLocale` and `ensureLocale`.

   Java's in-place updates become functions and methods that return the updated value.
   `null` becomes `Option`, and a thrown runtime exception becomes `Result.Thrown`.

2. **The flexible-string expander's observable contract**, as the FlexibleStringExpanderTests
   suite asserts it.
   - A raw template such as `Hello ${var}!` compiles (module `Template`) into segments:
     - literal text;
     - escaped placeholders `\${...}`;
     - placeholders whose expression is itself a template;
     - currency placeholders `${value?currency(code)}`.
   - Brace matching lives in module `Braces`.
   - Module `Expander` renders a compiled template against a context. The expression language,
     the text form of values and the currency formatter are collaborators bundled in an
     `Evaluator`.
   - `TemplateCache` threads the compiled-template cache explicitly.
   - `ExpanderExamples` checks the suite's concrete expansions against a small evaluator that
     mirrors the suite's context map.

The expander's implementation class is not part of this model. The parser and renderer are a
reconstruction fitted to the test suite: to its parse round trips and to the expansions stated in
`ExpanderExamples`. Each rule below is fixed by the test lines it cites:

- **Brace matching.** A placeholder ends at the `}` that balances every `{` inside it, not
  only nested `${`. The Groovy scripts at FlexibleStringExpanderTests.java:328-331 need this.
- **Quoted literals.** A single-quoted body is not raw text to the parser. Test :287 expects
  the `${var}` inside `'Hello ${var}'` to be expanded. The quotes are the evaluator's business.
- **Escapes.** An escaped `\${...}` renders without its backslash (:326-327), while `toString`
  keeps the backslash (:69-71).
- **Failing placeholders.** A lone placeholder whose expression was assembled from nested
  placeholders expands to `""` on failure, not to null. Tests :283, :285-286 and :289-291
  assert this; a lone plain placeholder expands to null (:284, :321-325).

## Model

Source paths are relative to the repository root.

| member | source | states |
|---|---|---|
| UtilMaps.ToMap | framework/base/src/main/java/org/apache/ofbiz/base/util/UtilMisc.java:129-143 | a lone Map argument is returned as it is; any other odd argument count throws IllegalArgument; otherwise the keys are exactly the even-position arguments and each maps to the value after its last occurrence |
| UtilCollections.CompareNullable | framework/base/src/main/java/org/apache/ofbiz/base/util/UtilMisc.java:72-80 | a null first argument gives 0 against null and 1 against anything else; otherwise the first argument's compareTo decides |
| UtilCollections.ContainsAll | framework/base/src/main/java/org/apache/ofbiz/base/util/UtilMisc.java:87 | true exactly when every element of the second list occurs in the first |
| UtilCollections.CompareLists | framework/base/src/main/java/org/apache/ofbiz/base/util/UtilMisc.java:82-97 | result is 0 iff both lists are null, or they have one size and each contains the other's elements; otherwise 1, never negative; exactly one null list throws NullPointer |
| UtilCollections.CompareListsSymmetric | framework/base/src/main/java/org/apache/ofbiz/base/util/UtilMisc.java:82-97 | swapping the arguments never changes the result, so the comparison orders nothing |
| UtilCollections.CompareListsIgnoresMultiplicity | framework/base/src/main/java/org/apache/ofbiz/base/util/UtilMisc.java:87 | [x,x,y] and [x,y,y] compare as 0 although their multisets differ |
| UtilCollections.CollectionToString | framework/base/src/main/java/org/apache/ofbiz/base/util/UtilMisc.java:309-322 | null exactly for a null or empty collection; otherwise every element's text followed by the delimiter, with a null delimiter read as empty |
| UtilCollections.TerminatedIsJoinPlusDelimiter | framework/base/src/main/java/org/apache/ofbiz/base/util/UtilMisc.java:317-321 | for a non-empty collection the result is the conventional delimiter join plus one trailing delimiter |
| UtilCollections.Dedup | framework/base/src/main/java/org/apache/ofbiz/base/util/UtilMisc.java:334-337 | inserting into a fresh insertion-ordered set yields each distinct element once, ordered by first occurrence |
| UtilCollections.FirstOccurrenceOrderUnique | framework/base/src/main/java/org/apache/ofbiz/base/util/UtilMisc.java:334-337 | "distinct, same elements, ordered by first occurrence" pins down a single sequence |
| UtilCollections.NoDupOwnOrder | framework/base/src/main/java/org/apache/ofbiz/base/util/UtilMisc.java:345-347 | a duplicate-free sequence is already its own first-occurrence order, so returning a Set as it is agrees with copying it |
| UtilCollections.ToSet | framework/base/src/main/java/org/apache/ofbiz/base/util/UtilMisc.java:330-362 | toSet(T...) and toSetArray have the same code: null iff the array is null; otherwise the distinct elements in first-occurrence order |
| UtilCollections.ToSetOfCollection | framework/base/src/main/java/org/apache/ofbiz/base/util/UtilMisc.java:341-351 | null iff the collection is null; a Set comes back as the same sequence; anything else gives its distinct elements in first-occurrence order |
| UtilCollections.RemoveFirst | framework/base/src/main/java/org/apache/ofbiz/base/util/UtilMisc.java:297 | Collection.remove takes away the first occurrence only, if there is one: the elements before and after it keep their order, a list without the element comes back unchanged, and exactly one copy leaves the multiset |
| UtilCollections.CollectionToSet | framework/base/src/main/java/org/apache/ofbiz/base/util/UtilMisc.java:288-301 | null iff the input is null; a Set is returned untouched; otherwise the caller's collection loses its first null and the result holds the remaining distinct elements in order, so it contains null iff the input held at least two nulls |
| UtilCollections.ToList | framework/base/src/main/java/org/apache/ofbiz/base/util/UtilMisc.java:370-393 | toList and toListArray return null for null and otherwise a list with the array's elements in order |
| UtilCollections.MakeArrayListSerializable | framework/base/src/main/java/org/apache/ofbiz/base/util/UtilMisc.java:200-209 | the list keeps, in order, exactly the non-null Serializable elements |
| UtilCollections.SerializablesMembers | framework/base/src/main/java/org/apache/ofbiz/base/util/UtilMisc.java:204-206 | an element survives iff it occurs in the input, is non-null and is Serializable, so nulls are dropped |
| UtilCollections.SerializablesIdempotent | framework/base/src/main/java/org/apache/ofbiz/base/util/UtilMisc.java:200-209 | filtering an already filtered list changes nothing |
| UtilMaps.MakeMapSerializable | framework/base/src/main/java/org/apache/ofbiz/base/util/UtilMisc.java:179-194 | a key is removed iff its value is non-null and not Serializable; null values and every other entry stay unchanged |
| UtilMaps.GetOrCreate | framework/base/src/main/java/org/apache/ofbiz/base/util/UtilMisc.java:236-258 | the key ends up holding the returned collection; an existing non-null one is returned with the map unchanged; otherwise a new empty one is put under the key; other keys are untouched |
| UtilMaps.GetOrCreateStable | framework/base/src/main/java/org/apache/ofbiz/base/util/UtilMisc.java:236-258 | a second get-or-create returns the same collection and changes nothing |
| UtilMaps.GetMapFromMap | framework/base/src/main/java/org/apache/ofbiz/base/util/UtilMisc.java:236-246 | an inner map the key already holds is returned with the outer map unchanged; otherwise a new empty map is put under the key and returned; other keys keep their values |
| UtilMaps.GetListFromMap | framework/base/src/main/java/org/apache/ofbiz/base/util/UtilMisc.java:248-258 | an inner list the key already holds is returned with the outer map unchanged; otherwise a new empty list is put under the key and returned; other keys keep their values |
| UtilMaps.AddToListInMap | framework/base/src/main/java/org/apache/ofbiz/base/util/UtilMisc.java:395-402 | the key's list, or a new empty one, gains the element at its end; no other key changes |
| UtilMaps.AddAllToListInMapOrder | framework/base/src/main/java/org/apache/ofbiz/base/util/UtilMisc.java:395-402 | repeated adds append the elements in call order after what the key held |
| UtilMaps.Insert | framework/base/src/main/java/org/apache/ofbiz/base/util/UtilMisc.java:410 | LinkedHashSet.add: an element already present leaves the set as it is, a new one goes last; the set stays duplicate-free |
| UtilMaps.AddToSetInMap | framework/base/src/main/java/org/apache/ofbiz/base/util/UtilMisc.java:404-411 | the key's set, or a new empty one, gains the element, stays duplicate-free and contains it; no other key changes |
| UtilMaps.AddToSetInMapIdempotent | framework/base/src/main/java/org/apache/ofbiz/base/util/UtilMisc.java:404-411 | adding the same element twice leaves the map as one add does |
| UtilMaps.Current | framework/base/src/main/java/org/apache/ofbiz/base/util/UtilMisc.java:261-274 | an absent or null value counts as zero; a BigDecimal gives its value and a Long its value as a decimal; a value of an unsupported type throws |
| UtilMaps.AddToBigDecimalInMap | framework/base/src/main/java/org/apache/ofbiz/base/util/UtilMisc.java:260-282 | throws IllegalArgument iff the key holds an unsupported type; otherwise returns current plus addend; a null or zero addend leaves the map alone, any other stores the sum under the key |
| UtilMaps.AddZeroKeepsAbsent | framework/base/src/main/java/org/apache/ofbiz/base/util/UtilMisc.java:276-278 | a zero or null addend on an absent key returns zero and leaves the key absent |
| UtilMaps.AccumulateSums | framework/base/src/main/java/org/apache/ofbiz/base/util/UtilMisc.java:260-282 | repeated calls return the starting number plus the sum of all addends, whatever zeros occur among them |
| UtilNumbers.Wrap32 | framework/base/src/main/java/org/apache/ofbiz/base/util/UtilMisc.java:484 | narrowing to int yields an int congruent to the input modulo 2^32 |
| UtilNumbers.Wrap64 | framework/base/src/main/java/org/apache/ofbiz/base/util/UtilMisc.java:540 | narrowing to long yields a long congruent to the input modulo 2^64 |
| UtilNumbers.WrapIdentity | framework/base/src/main/java/org/apache/ofbiz/base/util/UtilMisc.java:484 | a value that already fits is left unchanged by narrowing |
| UtilNumbers.Truncate | framework/base/src/main/java/org/apache/ofbiz/base/util/UtilMisc.java:484 | a decimal loses its fraction toward zero |
| UtilNumbers.ParseSigned | framework/base/src/main/java/org/apache/ofbiz/base/util/UtilMisc.java:486-493 | a string parses exactly when it is an optional sign followed by at least one digit and its value lies in the target range; the result is that value, negated after a `-`; everything else gives null |
| UtilNumbers.ParseInt | framework/base/src/main/java/org/apache/ofbiz/base/util/UtilMisc.java:486-493 | Integer.parseInt succeeds exactly on numerals whose value fits an int, and returns that value; otherwise the coercion gives null |
| UtilNumbers.ParseLong | framework/base/src/main/java/org/apache/ofbiz/base/util/UtilMisc.java:542-549 | Long.parseLong succeeds exactly on numerals whose value fits a long, and returns that value; otherwise the coercion gives null |
| UtilNumbers.NonNumeralFails | framework/base/src/main/java/org/apache/ofbiz/base/util/UtilMisc.java:486-493 | a character other than a digit anywhere but a leading sign with something after it makes the parse, and so the coercion, give null |
| UtilNumbers.NatStringDigits | framework/base/src/main/java/org/apache/ofbiz/base/util/UtilMisc.java:488 | the decimal digits of n are a non-empty digit string worth n |
| UtilNumbers.ParseIntRoundTrip | framework/base/src/main/java/org/apache/ofbiz/base/util/UtilMisc.java:488 | parsing the decimal string of any int gives that int back |
| UtilNumbers.ParseLongRoundTrip | framework/base/src/main/java/org/apache/ofbiz/base/util/UtilMisc.java:544 | parsing the decimal string of any long gives that long back |
| UtilNumbers.ParseSignedRoundTrip | framework/base/src/main/java/org/apache/ofbiz/base/util/UtilMisc.java:488 | the decimal string of any value in range parses back to it |
| UtilNumbers.ParseIntOverflow | framework/base/src/main/java/org/apache/ofbiz/base/util/UtilMisc.java:486-490 | an eleven-digit numeral without a leading zero is out of int range, so the parse fails |
| UtilNumbers.LeadingDigitBound | framework/base/src/main/java/org/apache/ofbiz/base/util/UtilMisc.java:488 | a numeral without a leading zero is worth at least 10^(length-1) |
| UtilNumbers.ToIntegerObject | framework/base/src/main/java/org/apache/ofbiz/base/util/UtilMisc.java:470-494 | null for null; an Integer as it is; a Long narrowed to its low 32 bits; a BigDecimal truncated toward zero, then narrowed; any other object's string gives its value when it is an int numeral and null otherwise |
| UtilNumbers.ToInteger | framework/base/src/main/java/org/apache/ofbiz/base/util/UtilMisc.java:465-468 | the object coercion's value when it has one, zero when it gives null |
| UtilNumbers.ToLongObject | framework/base/src/main/java/org/apache/ofbiz/base/util/UtilMisc.java:526-550 | null for null; a Long as it is; an Integer widened exactly; a BigDecimal truncated toward zero, then narrowed to 64 bits; any other object's string gives its value when it is a long numeral and null otherwise |
| UtilNumbers.ToLong | framework/base/src/main/java/org/apache/ofbiz/base/util/UtilMisc.java:521-524 | the object coercion's value when it has one, zero when it gives null |
| UtilNumbers.CoerceDecimalString | framework/base/src/main/java/org/apache/ofbiz/base/util/UtilMisc.java:486-491 | a string holding an integer's decimal form coerces back to that integer |
| UtilNumbers.NarrowingWraps | framework/base/src/main/java/org/apache/ofbiz/base/util/UtilMisc.java:483-485 | a Long coerced to int keeps its low 32 bits, so 2^31 becomes -2^31, while an Integer widens exactly to long |
| UtilNumbers.DecimalTruncates | framework/base/src/main/java/org/apache/ofbiz/base/util/UtilMisc.java:539-541 | decimals narrow toward zero: -2.5 gives -2 and 2.5 gives 2 |
| UtilLocale.ParseLocale | framework/base/src/main/java/org/apache/ofbiz/base/util/UtilMisc.java:572-598 | a locale exactly for lengths 2, 5 and above 6; the language is chars 0-1, the country chars 3-4 and the variant everything from 6; chars 2 and 5 are never read |
| UtilLocale.ParseLocaleString | framework/base/src/main/java/org/apache/ofbiz/base/util/UtilMisc.java:572-598 | parsing the string form of any parsable locale gives the locale back |
| UtilLocale.LocaleStringOfParse | framework/base/src/main/java/org/apache/ofbiz/base/util/UtilMisc.java:578-592 | a string of a valid length with `_` at the skipped positions is the string form of what it parses to |
| UtilLocale.EnsureLocale | framework/base/src/main/java/org/apache/ofbiz/base/util/UtilMisc.java:604-614 | a parsable string gives its locale and a locale is returned as it is; everything else gives the default |
| UtilLocale.EnsureLocaleString | framework/base/src/main/java/org/apache/ofbiz/base/util/UtilMisc.java:604-609 | the string form of a parsable locale yields that locale, whatever the default |
| UtilLocale.EnsureLocaleBadLength | framework/base/src/main/java/org/apache/ofbiz/base/util/UtilMisc.java:593-596 | strings of length 1, 3, 4 or 6 fall back to the default locale |
| Braces.MatchClose | framework/base/src/test/java/org/apache/ofbiz/base/util/string/FlexibleStringExpanderTests.java:328-331 | a match found is a `}` inside the input at or after the start |
| Braces.MatchCloseSound | framework/base/src/test/java/org/apache/ofbiz/base/util/string/FlexibleStringExpanderTests.java:328-331 | a match is the first point where the brace depth returns to zero; no match means the depth never does |
| Braces.MatchCloseComplete | framework/base/src/test/java/org/apache/ofbiz/base/util/string/FlexibleStringExpanderTests.java:328-331 | the first `}` that returns the depth to zero is the match found |
| Braces.BalancedCloses | framework/base/src/test/java/org/apache/ofbiz/base/util/string/FlexibleStringExpanderTests.java:328-331 | after a balanced body, the next `}` closes the placeholder, whatever follows |
| Braces.BraceFreeBalanced | framework/base/src/test/java/org/apache/ofbiz/base/util/string/FlexibleStringExpanderTests.java:328-331 | text without braces is balanced |
| Braces.BalancedAppend | framework/base/src/test/java/org/apache/ofbiz/base/util/string/FlexibleStringExpanderTests.java:328-331 | balanced texts stay balanced when joined |
| Braces.BalancedWrap | framework/base/src/test/java/org/apache/ofbiz/base/util/string/FlexibleStringExpanderTests.java:328-331 | a balanced text in a `{...}` block is balanced |
| Braces.BalancedNested | framework/base/src/test/java/org/apache/ofbiz/base/util/string/FlexibleStringExpanderTests.java:283 | a balanced text in a `${...}` placeholder is balanced, so placeholders nest |
| Braces.MatchCloseNoClose | framework/base/src/test/java/org/apache/ofbiz/base/util/string/FlexibleStringExpanderTests.java:294 | without any `}` ahead there is no match |
| Template.Parse | framework/base/src/test/java/org/apache/ofbiz/base/util/string/FlexibleStringExpanderTests.java:56-95 | the compiled form of a string; ShowParse states that its toString gives the input back for every input |
| Template.ScanEmpty | framework/base/src/test/java/org/apache/ofbiz/base/util/string/FlexibleStringExpanderTests.java:276-282 | the scanner returns no segment exactly when both the input and the pending text are empty |
| Template.CompileBody | framework/base/src/test/java/org/apache/ofbiz/base/util/string/FlexibleStringExpanderTests.java:78-94 | a placeholder body compiles to an ordinary or a currency placeholder; ShowCompileBody states that either shows as `${` body `}` |
| Template.ShowEmpty | framework/base/src/test/java/org/apache/ofbiz/base/util/string/FlexibleStringExpanderTests.java:42-50 | toString of a template is empty exactly when every segment is an empty literal |
| Template.IndexOf | framework/base/src/test/java/org/apache/ofbiz/base/util/string/FlexibleStringExpanderTests.java:78-94 | the first occurrence of a pattern at or after a position, or none |
| Template.SplitOnMarker | framework/base/src/test/java/org/apache/ofbiz/base/util/string/FlexibleStringExpanderTests.java:78-94 | a split body is value, marker, code and `)` in that order; the value is non-empty, the marker is its first occurrence and the code holds no `)`. SplitCurrency is this split on the `?currency(` marker, and SplitCurrencyAt states where it cuts |
| Template.Flush | framework/base/src/test/java/org/apache/ofbiz/base/util/string/FlexibleStringExpanderTests.java:65 | pending text becomes exactly one text segment holding it, and empty pending text becomes no segment |
| Template.ShowParse | framework/base/src/test/java/org/apache/ofbiz/base/util/string/FlexibleStringExpanderTests.java:42-50 | for every input, toString of the compiled template gives the input back, malformed inputs included |
| Template.ShowScan | framework/base/src/test/java/org/apache/ofbiz/base/util/string/FlexibleStringExpanderTests.java:56-95 | the scanner loses no character: its output shows as the pending text plus the rest of the input |
| Template.ShowAppend | framework/base/src/test/java/org/apache/ofbiz/base/util/string/FlexibleStringExpanderTests.java:42-50 | showing a concatenation of templates concatenates their texts |
| Template.ShowCompileBody | framework/base/src/test/java/org/apache/ofbiz/base/util/string/FlexibleStringExpanderTests.java:78-94 | a compiled placeholder body, currency or not, shows as `${` body `}` |
| Template.ScanPlain | framework/base/src/test/java/org/apache/ofbiz/base/util/string/FlexibleStringExpanderTests.java:65 | text without `$` or `\` only extends the pending literal |
| Template.ScanPlaceholder | framework/base/src/test/java/org/apache/ofbiz/base/util/string/FlexibleStringExpanderTests.java:280 | `${` with a balanced body then `}` becomes one placeholder segment after the flushed literal |
| Template.ScanEscaped | framework/base/src/test/java/org/apache/ofbiz/base/util/string/FlexibleStringExpanderTests.java:69-71 | `\${` with a balanced body then `}` becomes one escaped segment |
| Template.ScanUnterminated | framework/base/src/test/java/org/apache/ofbiz/base/util/string/FlexibleStringExpanderTests.java:73-77 | an introducer that is never closed turns itself and the rest of the input into one literal |
| Template.ScanPlainEnd | framework/base/src/test/java/org/apache/ofbiz/base/util/string/FlexibleStringExpanderTests.java:65 | plain trailing text ends the template as one literal segment |
| Template.ScanPlainPlaceholder | framework/base/src/test/java/org/apache/ofbiz/base/util/string/FlexibleStringExpanderTests.java:280 | plain text then a closed placeholder gives the text segment, the placeholder, then the scan of the rest |
| Template.ScanPlainEscaped | framework/base/src/test/java/org/apache/ofbiz/base/util/string/FlexibleStringExpanderTests.java:70 | plain text then a closed escaped placeholder gives the text segment, the escaped segment, then the rest |
| Template.NoCurrency | framework/base/src/test/java/org/apache/ofbiz/base/util/string/FlexibleStringExpanderTests.java:57 | a body without `?` compiles to an ordinary placeholder on its own parse |
| Template.CurrencyBody | framework/base/src/test/java/org/apache/ofbiz/base/util/string/FlexibleStringExpanderTests.java:94 | `value?currency(code)` with a non-empty value and a `)`-free code compiles to a currency placeholder on both parts |
| Template.ParseTextPlaceholderText | framework/base/src/test/java/org/apache/ofbiz/base/util/string/FlexibleStringExpanderTests.java:280 | text, balanced placeholder, text parses into exactly those parts |
| Template.ParseTextEscapedText | framework/base/src/test/java/org/apache/ofbiz/base/util/string/FlexibleStringExpanderTests.java:326 | text, escaped placeholder, text parses into exactly those parts |
| Template.ParseTextPlaceholderUnterminated | framework/base/src/test/java/org/apache/ofbiz/base/util/string/FlexibleStringExpanderTests.java:296 | text, a closed placeholder, then an unclosed introducer gives the placeholder and one trailing literal |
| Expander.Compile | framework/base/src/test/java/org/apache/ofbiz/base/util/string/FlexibleStringExpanderTests.java:276-282 | the compiled template is empty exactly for a null or empty input; IsEmptyOfCompile and OriginalOfCompile build on it |
| Expander.Render | framework/base/src/test/java/org/apache/ofbiz/base/util/string/FlexibleStringExpanderTests.java:279-280 | a template of literals only renders as its toString; RenderAppend and RenderSingle state how placeholders contribute |
| Expander.ExpandString | framework/base/src/test/java/org/apache/ofbiz/base/util/string/FlexibleStringExpanderTests.java:276-282 | a template of literals only expands to its toString; NullContext and ExpandStringIsStringForm relate it to expand |
| Expander.Expand | framework/base/src/test/java/org/apache/ofbiz/base/util/string/FlexibleStringExpanderTests.java:276-291 | null for a null context or an empty template; a typed result only for a lone placeholder; a lone placeholder on a nested expression never null; otherwise null only for a lone placeholder or currency. NullContext, NullInput, ExpandStringIsStringForm, ExpandRendered and the examples LoneFailure and NestedFailure pin the cases down |
| Expander.RenderAppend | framework/base/src/test/java/org/apache/ofbiz/base/util/string/FlexibleStringExpanderTests.java:296 | rendering is left to right: a concatenation renders as the concatenation of renders |
| Expander.RenderSingle | framework/base/src/test/java/org/apache/ofbiz/base/util/string/FlexibleStringExpanderTests.java:280 | a one-segment template renders as its segment |
| Expander.FailingPlaceholderIsolated | framework/base/src/test/java/org/apache/ofbiz/base/util/string/FlexibleStringExpanderTests.java:283-291 | a placeholder that fails or resolves to null adds nothing, and its neighbours render as if it were absent |
| Expander.FailingCurrencyIsolated | framework/base/src/test/java/org/apache/ofbiz/base/util/string/FlexibleStringExpanderTests.java:299-301 | a currency placeholder whose value or formatting fails adds nothing, and its neighbours are unaffected |
| Expander.RenderAllFailing | framework/base/src/test/java/org/apache/ofbiz/base/util/string/FlexibleStringExpanderTests.java:305-316 | when every evaluation fails, the render is exactly the template's literal skeleton |
| Expander.OriginalOfCompile | framework/base/src/test/java/org/apache/ofbiz/base/util/string/FlexibleStringExpanderTests.java:105-118 | getOriginal returns the input, and "" for a null input |
| Expander.IsEmptyOfCompile | framework/base/src/test/java/org/apache/ofbiz/base/util/string/FlexibleStringExpanderTests.java:276-282 | isEmpty holds exactly for the null and the empty input |
| Expander.NullContext | framework/base/src/test/java/org/apache/ofbiz/base/util/string/FlexibleStringExpanderTests.java:117-128 | with a null context, expandString returns the input unchanged and expand returns null, for any locale |
| Expander.NullInput | framework/base/src/test/java/org/apache/ofbiz/base/util/string/FlexibleStringExpanderTests.java:104-116 | a null input expands to "" and to null under any context, and is empty |
| Expander.ExpandStringIsStringForm | framework/base/src/test/java/org/apache/ofbiz/base/util/string/FlexibleStringExpanderTests.java:335-338 | under a context, expandString is the text form of what expand returns, so a typed result's text is the rendered string |
| Expander.ExpandRendered | framework/base/src/test/java/org/apache/ofbiz/base/util/string/FlexibleStringExpanderTests.java:185-187 | a template that is not empty and not one placeholder expands to a string equal to expandString's result |
| Expander.ConstantOnly | framework/base/src/test/java/org/apache/ofbiz/base/util/string/FlexibleStringExpanderTests.java:279 | markup-free text compiles to one literal and expands, typed or not, to itself |
| Expander.EscapedNotEvaluated | framework/base/src/test/java/org/apache/ofbiz/base/util/string/FlexibleStringExpanderTests.java:326-327 | an escaped placeholder is one escaped segment; it renders without the backslash and unevaluated, and toString keeps the backslash |
| Expander.UnterminatedRendersLiterally | framework/base/src/test/java/org/apache/ofbiz/base/util/string/FlexibleStringExpanderTests.java:294-295 | from an unclosed introducer on, the input renders verbatim after the pending text |
| TemplateCache.GetInstance | framework/base/src/test/java/org/apache/ofbiz/base/util/string/FlexibleStringExpanderTests.java:42-50 | cached or not, getInstance yields the input's compilation; the cache stays coherent, is untouched without caching, and gains only the input as a key |
| TemplateCache.CachedEqualsUncached | framework/base/src/test/java/org/apache/ofbiz/base/util/string/FlexibleStringExpanderTests.java:43-46 | cached and uncached compilations of one input are equal, whatever the caches hold |
| TemplateCache.RefetchIsHit | framework/base/src/test/java/org/apache/ofbiz/base/util/string/FlexibleStringExpanderTests.java:47-49 | fetching again from the cache gives an equal template and leaves the cache as it is |
| ExpanderExamples.ExpandAroundSegment | framework/base/src/test/java/org/apache/ofbiz/base/util/string/FlexibleStringExpanderTests.java:280 | a balanced placeholder between two markup-free texts expands to the texts around that placeholder's own rendering, and, when either text is non-empty, expand returns that string |
| ExpanderExamples.HelloVar | framework/base/src/test/java/org/apache/ofbiz/base/util/string/FlexibleStringExpanderTests.java:280 | `Hello ${var}!` expands to `Hello World!`, as a string |
| ExpanderExamples.LookupAround | framework/base/src/test/java/org/apache/ofbiz/base/util/string/FlexibleStringExpanderTests.java:318-320 | a plain lookup between two texts expands, in both forms, to the value's text between them |
| ExpanderExamples.MapLookup | framework/base/src/test/java/org/apache/ofbiz/base/util/string/FlexibleStringExpanderTests.java:318 | `Hello ${testMap.var}!` expands to `Hello World!` in both forms |
| ExpanderExamples.BlankLookup | framework/base/src/test/java/org/apache/ofbiz/base/util/string/FlexibleStringExpanderTests.java:319 | `Hello ${testMap.blank}World!` expands to `Hello World!` in both forms |
| ExpanderExamples.ListLookup | framework/base/src/test/java/org/apache/ofbiz/base/util/string/FlexibleStringExpanderTests.java:320 | `Hello ${testList[0]}!` expands to `Hello World!` in both forms |
| ExpanderExamples.JustBad | framework/base/src/test/java/org/apache/ofbiz/base/util/string/FlexibleStringExpanderTests.java:294-295 | `${foobar` and `Hello${foobar` expand to themselves, from expandString and as expand's string |
| ExpanderExamples.GoodAndBad | framework/base/src/test/java/org/apache/ofbiz/base/util/string/FlexibleStringExpanderTests.java:296 | `Hello ${var}${foobar` expands to `Hello World${foobar`, from expandString and as expand's string |
| ExpanderExamples.EscapedExpression | framework/base/src/test/java/org/apache/ofbiz/base/util/string/FlexibleStringExpanderTests.java:326 | `This is an \${escaped} expression` expands to `This is an ${escaped} expression`, from expandString and as expand's string; its original keeps the backslash |
| ExpanderExamples.NullNested | framework/base/src/test/java/org/apache/ofbiz/base/util/string/FlexibleStringExpanderTests.java:303 | `${${nullVar}}!` expands to `!` |
| ExpanderExamples.PlainCurrency | framework/base/src/test/java/org/apache/ofbiz/base/util/string/FlexibleStringExpanderTests.java:297 | `${amount?currency(${usd})}` expands to `$1,234,567.89`, also as expand's string result |
| ExpanderExamples.TotalCurrency | framework/base/src/test/java/org/apache/ofbiz/base/util/string/FlexibleStringExpanderTests.java:298 | `The total is ${amount?currency(${usd})}.` expands to `The total is $1,234,567.89.`, from expandString and as expand's string |
| ExpanderExamples.MissingCurrency | framework/base/src/test/java/org/apache/ofbiz/base/util/string/FlexibleStringExpanderTests.java:299 | a currency placeholder on a missing value expands to nothing: `The total is .`, from expandString and as expand's string |
| ExpanderExamples.VisibleNested | framework/base/src/test/java/org/apache/ofbiz/base/util/string/FlexibleStringExpanderTests.java:287 | `${'Hello ${var}'}!` expands the inner placeholder first and gives `Hello World!`, from expandString and as expand's string |
| ExpanderExamples.NestedAmount | framework/base/src/test/java/org/apache/ofbiz/base/util/string/FlexibleStringExpanderTests.java:335-336 | `${a${'moun'}t}` assembles the expression `amount` and expands to the typed amount, whose text is `1,234,567.89` |
| ExpanderExamples.LoneAmount | framework/base/src/test/java/org/apache/ofbiz/base/util/string/FlexibleStringExpanderTests.java:337-338 | `${amount}` expands to the typed amount itself |
| ExpanderExamples.LoneFailure | framework/base/src/test/java/org/apache/ofbiz/base/util/string/FlexibleStringExpanderTests.java:284 | `${throwException.value}` expands to null and to "" |
| ExpanderExamples.NestedFailure | framework/base/src/test/java/org/apache/ofbiz/base/util/string/FlexibleStringExpanderTests.java:285 | `${throw${exc}.value}` expands to the string "", not null |
| ExpanderExamples.BracketScript | framework/base/src/test/java/org/apache/ofbiz/base/util/string/FlexibleStringExpanderTests.java:328-329 | a script holding one `{...}` block stays one placeholder and expands to `This is a groovy bracket expression`, from expandString and as expand's string |
| ExpanderExamples.TwoBracketScript | framework/base/src/test/java/org/apache/ofbiz/base/util/string/FlexibleStringExpanderTests.java:330-331 | a script holding nested `{...}` blocks stays one placeholder and expands to `This is a groovy with 2 brackets expression`, from expandString and as expand's string |

## Left out

- copyFile and staticWait: file I/O and thread sleeping.
- splitPhoneNumber: it needs a phone-number library and entity lookups.
- getHostHeadersAllowed, availableLocales and LocaleHolder: they read property files and the JDK's locale tables.
- printMap: its output depends on the `line.separator` property and on hash-map iteration order.
- sortMaps: it depends on a comparator class that is not part of this model.
- The floating-point helpers: toDouble, toDoubleObject, addToDoubleInMap and getViewLastIndex.
- Trivial and unlisted helpers: initCause, toIterator, makeListWritable, makeMapWritable, removeFirst, toBigDecimal and addToSortedSetInMap.
- UtilMaps.AddToBigDecimalInMap: the `Double` branch is left out, because a binary double's exact decimal expansion is floating point. BigDecimal is a `real`, so scale is lost: `1.0` and `1.00` are one value. The map is non-null by type, so the NullPointerException for a null map (UtilMisc.java:257-259) is not modelled. The map is assumed modifiable: the UnsupportedOperationException its `put` (:280) throws on an unmodifiable map is not modelled.
- UtilCollections.CompareLists: Java's reference-identity shortcut is not modelled. For two non-null lists it gives 0 only in cases the containment test also gives 0.
- UtilCollections.CompareNullable: `compareTo` is a caller-supplied function. What a real `compareTo` does with a null argument is its own business.
- UtilCollections.CollectionToString: the null-safe `toString` of the elements is a caller-supplied function.
- UtilMaps.MakeMapSerializable: the map is assumed modifiable; the UnsupportedOperationException its `remove` (UtilMisc.java:192) throws on an unmodifiable map is not modelled.
- UtilMaps.GetOrCreate: the outer map is assumed modifiable; the UnsupportedOperationException from its `put` (UtilMisc.java:240, :252) is not modelled.
- UtilMaps.GetMapFromMap: a value of the wrong collection type is not modelled. The outer maps are typed by the collection they hold, so no cast can fail, and they are non-null by type, so the NullPointerException the Javadoc documents for a null outer map (UtilMisc.java:233-235) cannot arise. The outer map is assumed modifiable: the UnsupportedOperationException its `put` (:240) throws on an unmodifiable map is not modelled.
- UtilMaps.GetListFromMap: the same applies (:245-247), including the assumption that the outer map is modifiable (`put` at :252).
- UtilMaps.AddToListInMap: the same applies. The ClassCastException when the key holds a value that is not a list (:396) cannot arise. The map and the list it holds are assumed modifiable: the UnsupportedOperationException from `put` (:399) or `add` (:401) is not modelled.
- UtilMaps.AddToSetInMap: the same applies. The ClassCastException when the key holds a value that is not a set (:405) cannot arise. The map and the set it holds are assumed modifiable: the UnsupportedOperationException from `put` (:408) or `add` (:410) is not modelled. A set the key already holds is modelled as insertion-ordered, like the `LinkedHashSet` the method creates, so the new element goes last. A caller's `HashSet` has no order, and a `TreeSet` such as addToSortedSetInMap creates (:413-420) sorts its elements and throws a NullPointerException for a null element; neither is modelled.
- UtilCollections.CollectionToSet: every collection that is not a Set is treated as modifiable. On an unmodifiable collection, such as `List.of(...)` or `Collections.unmodifiableList`, `remove(null)` at :297 throws UnsupportedOperationException; that exception path is not modelled.
- UtilNumbers.ParseInt: only ASCII digits are accepted. Java's `Character.digit` also accepts other Unicode decimal digits.
- UtilNumbers.ParseLong: the same applies.
- UtilNumbers.ToIntegerObject: of the `Number` subclasses, only Integer, Long and BigDecimal are modelled. Float and Double are floating point. Short, Byte and the atomic types behave like an Integer of the same value.
- UtilNumbers.ToLongObject: the same applies.
- UtilLocale.ParseLocale: only the substring split is modelled. For lengths 2 and 5, Java's locale builder also validates and case-normalises the parts, and throws on an ill-formed language or country. For longer strings, the legacy constructor only case-normalises.
- Logging is not modelled: the `Debug.logError` calls in the coercions' catch blocks (UtilMisc.java:489-490, :545-546) and the verbose log in makeMapSerializable (:186-188) have no observable effect on the results.
- UtilLocale.EnsureLocale: the JVM default locale is the `default` parameter.
- Expression evaluation (UEL and Groovy) and the Groovy sandbox are left to the evaluator. This includes quoted literals, property navigation and exceptions, which the `Evaluator` reports as failures.
- The currency formatter and the locale-aware text form of values are evaluator functions. The locale/time-zone fallback chain (explicit argument, context keys, the user's last locale, the JVM default) is left out: `Expander` takes the resolved locale as a parameter.
- The converter framework used to stringify values (tests :317) is left out.
- The cache's concurrency and instance identity are left out. `TemplateCache` models only that cached and uncached compilations are equal.
- Template.SplitCurrency: only a currency directive at the very end of a placeholder body is recognised. Every body the test suite uses has this shape; text after the closing `)` makes the body an ordinary placeholder.
- ExpanderExamples: the date example (:292) and the Groovy script examples (:304-317) depend on date formatting and script execution, and are left out. The blank nested replacement (:288) is not restated; its shape is the one VisibleNested proves. The remaining failure examples are instances of `FailingPlaceholderIsolated`.

=== FILE: braces.dfy ===
/**
 * Brace matching for placeholder bodies. A placeholder ends at the `}` that balances every `{`
 * read since its opening brace, so script bodies such as `if (x) {return 1}` stay inside.
 */
module Braces {
  import opened Nullable

  /** +1 for an opening brace, -1 for a closing one, 0 for any other character. */
  function Step(c: char): int {
    if c == '{' then 1 else if c == '}' then -1 else 0
  }

  /** Net nesting change across `s`: opening braces minus closing braces. */
  function Net(s: string): int {
    if |s| == 0 then 0 else Step(s[0]) + Net(s[1..])
  }

  /** `s` holds no brace at all. */
  predicate BraceFree(s: string) {
    forall i :: 0 <= i < |s| ==> s[i] != '{' && s[i] != '}'
  }

  /** Every prefix of `s` closes no more braces than it opens, and `s` as a whole closes them all. */
  ghost predicate Balanced(s: string) {
    Net(s) == 0 && forall k :: 0 <= k <= |s| ==> Net(s[..k]) >= 0
  }

  /** Starting at depth `d` before index `i`, the depth stays positive up to index `j`. */
  ghost predicate OpenThrough(s: string, i: nat, j: nat, d: int)
    requires i <= j <= |s|
  {
    forall k :: i <= k <= j ==> d + Net(s[i..k]) >= 1
  }

  /**
   * Scanning `s` from index `i` at brace depth `depth`, the index of the `}` that brings the
   * depth back to zero, if the input holds one.
   */
  function MatchClose(s: string, i: nat, depth: nat): (r: Option<nat>)
    requires 1 <= depth && i <= |s|
    ensures r.Some? ==> i <= r.value < |s| && s[r.value] == '}'
    decreases |s| - i
  {
    if i == |s| then None
    else if s[i] == '}' then (if depth == 1 then Some(i) else MatchClose(s, i + 1, depth - 1))
    else if s[i] == '{' then MatchClose(s, i + 1, depth + 1)
    else MatchClose(s, i + 1, depth)
  }

  lemma {:induction false} NetAppend(x: string, y: string)
    ensures Net(x + y) == Net(x) + Net(y)
    decreases |x|
  {
    if |x| > 0 {
      assert (x + y)[1..] == x[1..] + y;
      NetAppend(x[1..], y);
    } else {
      assert x + y == y;
    }
  }

  /** Net(s[i..k]) unfolds one character at the front. */
  lemma NetFront(s: string, i: nat, k: nat)
    requires i < k <= |s|
    ensures Net(s[i..k]) == Step(s[i]) + Net(s[i + 1..k])
  {
    assert s[i..k][1..] == s[i + 1..k];
  }

  /**
   * When MatchClose finds an index, the depth first returns to zero just after it; when it finds
   * none, the depth never returns to zero.
   */
  lemma {:induction false} MatchCloseSound(s: string, i: nat, depth: nat)
    requires 1 <= depth && i <= |s|
    ensures MatchClose(s, i, depth).Some? ==>
              var j := MatchClose(s, i, depth).value;
              depth + Net(s[i..j + 1]) == 0 && OpenThrough(s, i, j, depth)
    ensures MatchClose(s, i, depth).None? ==> OpenThrough(s, i, |s|, depth)
    decreases |s| - i
  {
    if i == |s| {
      assert OpenThrough(s, i, |s|, depth) by {
        forall k | i <= k <= |s| ensures depth + Net(s[i..k]) >= 1 {
          assert s[i..k] == [];
        }
      }
    } else {
      var d' := depth + Step(s[i]);
      if s[i] == '}' && depth == 1 {
        NetFront(s, i, i + 1);
        assert s[i..i] == [];
        assert OpenThrough(s, i, i, depth);
      } else {
        assert d' >= 1;
        MatchCloseSound(s, i + 1, d');
        assert MatchClose(s, i, depth) == MatchClose(s, i + 1, d');
        var bound := if MatchClose(s, i, depth).Some? then MatchClose(s, i, depth).value else |s|;
        forall k | i < k <= bound + 1 && k <= |s|
          ensures Net(s[i..k]) == Step(s[i]) + Net(s[i + 1..k])
        {
          NetFront(s, i, k);
        }
        assert s[i..i] == [];
      }
    }
  }

  /** Conversely, the first `}` at which the depth returns to zero is the one MatchClose finds. */
  lemma {:induction false} MatchCloseComplete(s: string, i: nat, j: nat, depth: nat)
    requires 1 <= depth && i <= j < |s|
    requires s[j] == '}' && depth + Net(s[i..j]) == 1 && OpenThrough(s, i, j, depth)
    ensures MatchClose(s, i, depth) == Some(j)
    decreases j - i
  {
    if i == j {
      assert s[i..i] == [];
    } else {
      NetFront(s, i, j);
      NetFront(s, i, i + 1);
      assert s[i..i] == [];
      assert s[i + 1..i + 1] == [];
      var d' := depth + Step(s[i]);
      assert d' >= 1 by { assert depth + Net(s[i..i + 1]) >= 1; }
      var i' := i + 1;
      forall k | i' <= k <= j ensures d' + Net(s[i'..k]) >= 1 {
        NetFront(s, i, k);
      }
      MatchCloseComplete(s, i', j, d');
    }
  }

  /** A balanced body followed by `}` closes exactly at that `}`, whatever precedes or follows. */
  lemma BalancedCloses(p: string, b: string, rest: string)
    requires Balanced(b)
    ensures MatchClose(p + b + "}" + rest, |p|, 1) == Some(|p| + |b|)
  {
    var s := p + b + "}" + rest;
    forall k | |p| <= k <= |p| + |b| ensures s[|p|..k] == b[..k - |p|] { }
    assert s[|p|..|p| + |b|] == b;
    MatchCloseComplete(s, |p|, |p| + |b|, 1);
  }

  lemma {:induction false} BraceFreeNet(s: string)
    requires BraceFree(s)
    ensures Net(s) == 0
    decreases |s|
  {
    if |s| > 0 {
      BraceFreeNet(s[1..]);
    }
  }

  lemma BraceFreeBalanced(s: string)
    requires BraceFree(s)
    ensures Balanced(s)
  {
    BraceFreeNet(s);
    forall k | 0 <= k <= |s| ensures Net(s[..k]) >= 0 {
      BraceFreeNet(s[..k]);
    }
  }

  lemma BalancedAppend(x: string, y: string)
    requires Balanced(x) && Balanced(y)
    ensures Balanced(x + y)
  {
    NetAppend(x, y);
    forall k | 0 <= k <= |x + y| ensures Net((x + y)[..k]) >= 0 {
      if k <= |x| {
        assert (x + y)[..k] == x[..k];
      } else {
        assert (x + y)[..k] == x + y[..k - |x|];
        NetAppend(x, y[..k - |x|]);
      }
    }
  }

  lemma BalancedWrap(b: string)
    requires Balanced(b)
    ensures Balanced("{" + b + "}")
  {
    var w := "{" + b + "}";
    NetAppend("{" + b, "}");
    NetAppend("{", b);
    forall k | 0 <= k <= |w| ensures Net(w[..k]) >= 0 {
      if k == 0 {
        assert w[..k] == [];
      } else if k <= |b| + 1 {
        assert w[..k] == "{" + b[..k - 1];
        NetAppend("{", b[..k - 1]);
      } else {
        assert w[..k] == w;
      }
    }
  }

  /** A nested `${...}` around a balanced body is balanced too. */
  lemma BalancedNested(b: string)
    requires Balanced(b)
    ensures Balanced("${" + b + "}")
  {
    BalancedWrap(b);
    BraceFreeBalanced("$");
    BalancedAppend("$", "{" + b + "}");
    assert "$" + ("{" + b + "}") == "${" + b + "}";
  }

  /** Without any `}` from index `i` on, the depth never returns to zero. */
  lemma {:induction false} MatchCloseNoClose(s: string, i: nat, depth: nat)
    requires 1 <= depth && i <= |s|
    requires forall k :: i <= k < |s| ==> s[k] != '}'
    ensures MatchClose(s, i, depth).None?
    decreases |s| - i
  {
    if i < |s| {
      MatchCloseNoClose(s, i + 1, depth + Step(s[i]));
    }
  }
}

=== FILE: expander.dfy ===
/**
 * Expansion of compiled templates against a caller's context.
 *
 * The expression language, the locale-aware string form of values and the currency formatter are
 * collaborators the expander only calls; they are bundled in an `Evaluator`. A failing or null
 * evaluation never aborts an expansion: the placeholder contributes nothing.
 */
module Expander {
  import opened Nullable
  import opened Braces
  import opened Template

  /**
   * The expander's collaborators. `C` is the caller's context map, `L` the locale and time zone
   * the call resolved, `V` the values expressions resolve to. `eval` returns `None` both when an
   * expression fails and when it resolves to null.
   */
  datatype Evaluator<!C, !L, !V> = Evaluator(
    eval: (C, string) -> Option<V>,
    text: (V, L) -> string,
    currency: (V, string, L) -> Option<string>)

  /** What `expand` returns when it returns something: a typed value or a rendered string. */
  datatype Expanded<V> = Typed(value: V) | Str(s: string)

  /** The text a resolved placeholder contributes: nothing when it failed or was null. */
  function ValueText<C, L, V>(v: Option<V>, loc: L, ev: Evaluator<C, L, V>): string
  {
    match v
    case None => ""
    case Some(x) => ev.text(x, loc)
  }

  /** The currency directive applied to a resolved value; `None` when either step fails. */
  function CurrencyText<C, L, V>(v: Option<V>, code: string, loc: L, ev: Evaluator<C, L, V>): Option<string>
  {
    match v
    case None => None
    case Some(x) => ev.currency(x, code, loc)
  }

  /** Renders a template against a (non-null) context. */
  function Render<C, L, V>(t: Template, ctx: C, loc: L, ev: Evaluator<C, L, V>): (r: string)
    ensures (forall i :: 0 <= i < |t| ==> t[i].Text?) ==> r == Show(t)
    decreases t
  {
    if |t| == 0 then "" else RenderSegment(t[0], ctx, loc, ev) + Render(t[1..], ctx, loc, ev)
  }

  function RenderSegment<C, L, V>(g: Segment, ctx: C, loc: L, ev: Evaluator<C, L, V>): string
    decreases g
  {
    match g
    case Text(x) => x
    case Escaped(b) => "${" + b + "}"
    case Placeholder(e) => ValueText(ev.eval(ctx, Render(e, ctx, loc, ev)), loc, ev)
    case Currency(v, c) =>
      CurrencyText(ev.eval(ctx, Render(v, ctx, loc, ev)), Render(c, ctx, loc, ev), loc, ev).GetOr("")
  }

  /** A placeholder expression with no placeholder (nor escaped one) inside it. */
  predicate Flat(e: Template) {
    forall g :: g in e ==> g.Text?
  }

  /** `getInstance`: a null input compiles to the empty template. */
  function Compile(input: Option<string>): (t: Template)
    ensures t == [] <==> input.None? || input == Some("")
  {
    match input
    case None => []
    case Some(s) =>
      ScanEmpty(s, "");
      Parse(s)
  }

  /** `getOriginal` / `toString`. */
  function Original(t: Template): string
  {
    Show(t)
  }

  predicate IsEmpty(t: Template) {
    |t| == 0
  }

  /** `expandString`: with a null context the original text comes back unchanged. */
  function ExpandString<C, L, V>(t: Template, ctx: Option<C>, loc: L, ev: Evaluator<C, L, V>): (r: string)
    ensures (forall i :: 0 <= i < |t| ==> t[i].Text?) ==> r == Show(t)
  {
    match ctx
    case None => Original(t)
    case Some(c) => Render(t, c, loc, ev)
  }

  /**
   * `expand`: null for a null context or an empty template. A template that is one placeholder
   * returns the typed value it resolves to; when resolution fails that is null, except that a
   * placeholder whose expression was itself built from placeholders yields the empty string. A
   * template that is one currency placeholder returns the formatted amount, or null. Any other
   * template returns its rendered string.
   */
  function Expand<C, L, V>(t: Template, ctx: Option<C>, loc: L, ev: Evaluator<C, L, V>): (r: Option<Expanded<V>>)
    ensures ctx.None? || t == [] ==> r.None?
    ensures r.Some? && r.value.Typed? ==> |t| == 1 && t[0].Placeholder?
    ensures ctx.Some? && |t| == 1 && t[0].Placeholder? && !Flat(t[0].expr) ==> r.Some?
    ensures r.None? ==> ctx.None? || t == [] || (|t| == 1 && (t[0].Placeholder? || t[0].Currency?))
  {
    if ctx.None? || |t| == 0 then None
    else if |t| == 1 && t[0].Placeholder? then
      match ev.eval(ctx.value, Render(t[0].expr, ctx.value, loc, ev))
      case Some(x) => Some(Typed(x))
      case None => if Flat(t[0].expr) then None else Some(Str(""))
    else if |t| == 1 && t[0].Currency? then
      match CurrencyText(ev.eval(ctx.value, Render(t[0].value, ctx.value, loc, ev)),
                         Render(t[0].code, ctx.value, loc, ev), loc, ev)
      case Some(x) => Some(Str(x))
      case None => None
    else Some(Str(Render(t, ctx.value, loc, ev)))
  }

  /** The string form of an expansion result: empty for null, the value's text for a typed value. */
  function StringForm<C, L, V>(r: Option<Expanded<V>>, loc: L, ev: Evaluator<C, L, V>): string
  {
    match r
    case None => ""
    case Some(Str(x)) => x
    case Some(Typed(x)) => ev.text(x, loc)
  }

  /** The literal skeleton of a template: its text and escaped spans, with every placeholder dropped. */
  function Literal(t: Template): string
    decreases t
  {
    if |t| == 0 then ""
    else
      (match t[0]
       case Text(x) => x
       case Escaped(b) => "${" + b + "}"
       case _ => "") + Literal(t[1..])
  }

  lemma {:induction false} RenderAppend<C, L, V>(a: Template, b: Template, ctx: C, loc: L, ev: Evaluator<C, L, V>)
    ensures Render(a + b, ctx, loc, ev) == Render(a, ctx, loc, ev) + Render(b, ctx, loc, ev)
    decreases |a|
  {
    if |a| > 0 {
      assert (a + b)[0] == a[0];
      assert (a + b)[1..] == a[1..] + b;
      RenderAppend(a[1..], b, ctx, loc, ev);
    } else {
      assert a + b == b;
    }
  }

  lemma RenderSingle<C, L, V>(g: Segment, ctx: C, loc: L, ev: Evaluator<C, L, V>)
    ensures Render([g], ctx, loc, ev) == RenderSegment(g, ctx, loc, ev)
  {
    assert [g][1..] == [];
  }

  /**
   * Failure isolation: a placeholder whose expression fails or resolves to null contributes the
   * empty string, and its neighbours render exactly as they would without it.
   */
  lemma FailingPlaceholderIsolated<C, L, V>(a: Template, e: Template, b: Template, ctx: C, loc: L, ev: Evaluator<C, L, V>)
    requires ev.eval(ctx, Render(e, ctx, loc, ev)).None?
    ensures Render(a + [Placeholder(e)] + b, ctx, loc, ev) == Render(a, ctx, loc, ev) + Render(b, ctx, loc, ev)
  {
    RenderAppend(a + [Placeholder(e)], b, ctx, loc, ev);
    RenderAppend(a, [Placeholder(e)], ctx, loc, ev);
  }

  /** The same for a currency placeholder whose value or formatting fails. */
  lemma FailingCurrencyIsolated<C, L, V>(a: Template, v: Template, c: Template, b: Template, ctx: C, loc: L, ev: Evaluator<C, L, V>)
    requires CurrencyText(ev.eval(ctx, Render(v, ctx, loc, ev)), Render(c, ctx, loc, ev), loc, ev).None?
    ensures Render(a + [Currency(v, c)] + b, ctx, loc, ev) == Render(a, ctx, loc, ev) + Render(b, ctx, loc, ev)
  {
    RenderAppend(a + [Currency(v, c)], b, ctx, loc, ev);
    RenderAppend(a, [Currency(v, c)], ctx, loc, ev);
  }

  /** When every evaluation fails, a render is exactly the template's literal skeleton. */
  lemma {:induction false} RenderAllFailing<C, L, V>(t: Template, ctx: C, loc: L, ev: Evaluator<C, L, V>)
    requires forall x :: ev.eval(ctx, x).None?
    ensures Render(t, ctx, loc, ev) == Literal(t)
    decreases |t|
  {
    if |t| > 0 {
      RenderAllFailing(t[1..], ctx, loc, ev);
      match t[0]
      case Placeholder(e) =>
        assert ev.eval(ctx, Render(e, ctx, loc, ev)).None?;
      case Currency(v, c) =>
        assert ev.eval(ctx, Render(v, ctx, loc, ev)).None?;
      case _ =>
    }
  }

  /** `getOriginal` gives back the input, and the empty string for a null input. */
  lemma OriginalOfCompile(input: Option<string>)
    ensures Original(Compile(input)) == input.GetOr("")
  {
    if input.Some? {
      ShowParse(input.value);
    }
  }

  /** `isEmpty` holds exactly for the null and the empty input. */
  lemma IsEmptyOfCompile(input: Option<string>)
    ensures IsEmpty(Compile(input)) <==> input.None? || input == Some("")
  {
    OriginalOfCompile(input);
  }

  /** With a null context, `expandString` returns the input and `expand` returns null, whatever the locale. */
  lemma NullContext<C, L, V>(input: Option<string>, loc: L, ev: Evaluator<C, L, V>)
    ensures ExpandString(Compile(input), None, loc, ev) == input.GetOr("")
    ensures Expand(Compile(input), None, loc, ev) == None
  {
    OriginalOfCompile(input);
  }

  /** A null input expands to the empty string and to null under any context. */
  lemma NullInput<C, L, V>(ctx: Option<C>, loc: L, ev: Evaluator<C, L, V>)
    ensures ExpandString(Compile(None), ctx, loc, ev) == ""
    ensures Expand(Compile(None), ctx, loc, ev) == None
    ensures IsEmpty(Compile(None))
  {
  }

  /** Under a context, `expandString` is the string form of what `expand` returns. */
  lemma ExpandStringIsStringForm<C, L, V>(t: Template, ctx: C, loc: L, ev: Evaluator<C, L, V>)
    ensures ExpandString(t, Some(ctx), loc, ev) == StringForm(Expand(t, Some(ctx), loc, ev), loc, ev)
  {
    if |t| == 1 {
      assert t == [t[0]] + [];
      RenderAppend([t[0]], [], ctx, loc, ev);
    }
  }

  /** Text without `$` or `\` compiles to one literal segment and expands to itself. */
  lemma ConstantOnly<C, L, V>(s: string, ctx: C, loc: L, ev: Evaluator<C, L, V>)
    requires NoMarkup(s) && s != ""
    ensures Compile(Some(s)) == [Text(s)]
    ensures ExpandString(Compile(Some(s)), Some(ctx), loc, ev) == s
    ensures Expand(Compile(Some(s)), Some(ctx), loc, ev) == Some(Str(s))
  {
    ScanPlain(s, "", "");
    assert s + "" == s;
    assert "" + s == s;
    assert Parse(s) == Scan("", s) == [Text(s)];
    RenderAppend([Text(s)], [], ctx, loc, ev);
  }

  /**
   * An escaped placeholder is never evaluated: it renders as its span without the backslash,
   * while the original text keeps the backslash.
   */
  lemma EscapedNotEvaluated<C, L, V>(b: string, ctx: C, loc: L, ev: Evaluator<C, L, V>)
    requires Balanced(b)
    ensures Compile(Some("\\${" + b + "}")) == [Escaped(b)]
    ensures ExpandString(Compile(Some("\\${" + b + "}")), Some(ctx), loc, ev) == "${" + b + "}"
    ensures Original(Compile(Some("\\${" + b + "}"))) == "\\${" + b + "}"
  {
    var raw := "\\${" + b + "}";
    ScanEscaped(b, "", "");
    assert raw + "" == raw;
    assert Parse(raw) == [Escaped(b)] by {
      assert Parse(raw) == Flush("") + [Escaped(b)] + Scan("", "");
    }
    RenderAppend([Escaped(b)], [], ctx, loc, ev);
    assert Show([Escaped(b)]) == ShowSegment(Escaped(b)) + Show([]);
  }

  /**
   * A template that is neither empty nor one placeholder (plain or currency) expands to its
   * rendered string: expand and expandString then agree.
   */
  lemma ExpandRendered<C, L, V>(t: Template, ctx: C, loc: L, ev: Evaluator<C, L, V>)
    requires |t| > 1 || (|t| == 1 && (t[0].Text? || t[0].Escaped?))
    ensures Expand(t, Some(ctx), loc, ev) == Some(Str(ExpandString(t, Some(ctx), loc, ev)))
  {
  }

  /** From an introducer that is never closed, the input renders literally to its end. */
  lemma UnterminatedRendersLiterally<C, L, V>(s: string, lit: string, ctx: C, loc: L, ev: Evaluator<C, L, V>)
    requires (OpensAt(s) && MatchClose(s, 2, 1).None?) || (EscapeAt(s) && MatchClose(s, 3, 1).None?)
    ensures Render(Scan(s, lit), ctx, loc, ev) == lit + s
  {
    ScanUnterminated(s, lit);
  }
}

=== FILE: expander_examples.dfy ===
/**
 * The expansions FlexibleStringExpanderTests asserts, checked against the model.
 *
 * The evaluator below stands for the test's context map: it resolves the expressions the examples
 * here resolve successfully (including the two bracketed scripts) and single-quoted literals, and
 * fails on everything else, which covers the null, missing, throwing and sandboxed expressions.
 * The map's top-level `blank` entry is not among them: no example here expands it.
 * Long inputs are written as concatenations of their lexical pieces; the value is the test's string.
 */
module ExpanderExamples {
  import opened Nullable
  import opened Braces
  import opened Template
  import opened Expander

  datatype Value = StrValue(s: string) | Amount

  /** The only locale the examples use, `en_US`. */
  datatype Locale = EnUS

  type Context = map<string, Value>

  /** `groovy: if (true) {return 'bracket'}` */
  const OneBracket: string := "groovy: if (true) " + "{" + "return 'bracket'" + "}"

  /** `groovy: if (true) {if (true) {return 'with 2 brackets'}}` */
  const TwoBrackets: string :=
    "groovy: if (true) " + "{" + "if (true) " + "{" + "return 'with 2 " + "brackets'" + "}" + "}"

  const TestMap: Context := map[
    "var" := StrValue("World"),
    "usd" := StrValue("USD"),
    "amount" := Amount,
    "exc" := StrValue("Exception"),
    "testMap.var" := StrValue("World"),
    "testMap.blank" := StrValue(""),
    "testList[0]" := StrValue("World"),
    OneBracket := StrValue("bracket"),
    TwoBrackets := StrValue("with 2 " + "brackets")]

  /** Looks the expression up in the context; a single-quoted literal evaluates to its contents. */
  function TestEval(ctx: Context, e: string): Option<Value>
  {
    if e in ctx then Some(ctx[e])
    else if |e| >= 2 && e[0] == '\'' && e[|e| - 1] == '\'' then Some(StrValue(e[1..|e| - 1]))
    else None
  }

  function TestText(v: Value, loc: Locale): string
  {
    match v
    case StrValue(s) => s
    case Amount => "1,234,567.89"
  }

  function TestCurrency(v: Value, code: string, loc: Locale): Option<string>
  {
    if v == Amount && code == "USD" then Some("$1,234,567.89") else None
  }

  const Tests: Evaluator<Context, Locale, Value> := Evaluator(TestEval, TestText, TestCurrency)

  /** A placeholder whose body is plain text. */
  lemma PlainBody(b: string)
    requires NoMarkup(b) && '?' !in b
    ensures CompileBody(b) == Placeholder(Flush(b))
  {
    NoCurrency(b);
    ScanPlainEnd(b, "");
    assert "" + b == b;
  }

  /** A raw string that is one balanced placeholder. */
  lemma LoneBody(b: string)
    requires Balanced(b)
    ensures Parse("${" + b + "}") == [CompileBody(b)]
  {
    ScanPlainPlaceholder("", b, "", "");
    assert "" + "${" + b + "}" + "" == "${" + b + "}";
  }

  /** `${name}` for a plain name: one placeholder on that name. */
  lemma NamePlaceholder(name: string)
    requires name != "" && NoMarkup(name) && BraceFree(name) && '?' !in name
    ensures Balanced("${" + name + "}")
    ensures Parse("${" + name + "}") == [Placeholder([Text(name)])]
  {
    BraceFreeBalanced(name);
    BalancedNested(name);
    LoneBody(name);
    PlainBody(name);
  }

  lemma RenderPair(a: Segment, b: Segment, ctx: Context)
    ensures Render([a, b], ctx, EnUS, Tests) == RenderSegment(a, ctx, EnUS, Tests) + RenderSegment(b, ctx, EnUS, Tests)
  {
    assert [a, b] == [a] + [b];
    RenderAppend([a], [b], ctx, EnUS, Tests);
    RenderSingle(a, ctx, EnUS, Tests);
    RenderSingle(b, ctx, EnUS, Tests);
  }

  lemma RenderTriple(a: Segment, b: Segment, c: Segment, ctx: Context)
    ensures Render([a, b, c], ctx, EnUS, Tests)
         == RenderSegment(a, ctx, EnUS, Tests) + RenderSegment(b, ctx, EnUS, Tests) + RenderSegment(c, ctx, EnUS, Tests)
  {
    assert [a, b, c] == [a] + [b] + [c];
    RenderAppend([a] + [b], [c], ctx, EnUS, Tests);
    RenderAppend([a], [b], ctx, EnUS, Tests);
    RenderSingle(a, ctx, EnUS, Tests);
    RenderSingle(b, ctx, EnUS, Tests);
    RenderSingle(c, ctx, EnUS, Tests);
  }

  /** A placeholder on a plain name renders the name's value. */
  lemma RenderName(name: string, ctx: Context)
    ensures RenderSegment(Placeholder([Text(name)]), ctx, EnUS, Tests)
         == ValueText(TestEval(ctx, name), EnUS, Tests)
  {
    RenderSingle(Text(name), ctx, EnUS, Tests);
  }

  /** Pending literal text renders as itself. */
  lemma RenderFlush(x: string, ctx: Context)
    ensures Render(Flush(x), ctx, EnUS, Tests) == x
  {
    if x != "" {
      RenderSingle(Text(x), ctx, EnUS, Tests);
    }
  }

  /** Text, one balanced placeholder, text: the placeholder's rendering between the two texts. */
  lemma ExpandAroundSegment(t1: string, b: string, t2: string)
    requires NoMarkup(t1) && Balanced(b) && NoMarkup(t2)
    ensures ExpandString(Compile(Some(t1 + "${" + b + "}" + t2)), Some(TestMap), EnUS, Tests)
         == t1 + RenderSegment(CompileBody(b), TestMap, EnUS, Tests) + t2
    ensures t1 != "" || t2 != "" ==>
      Expand(Compile(Some(t1 + "${" + b + "}" + t2)), Some(TestMap), EnUS, Tests)
      == Some(Str(t1 + RenderSegment(CompileBody(b), TestMap, EnUS, Tests) + t2))
  {
    ParseTextPlaceholderText(t1, b, t2);
    var g := CompileBody(b);
    RenderAppend(Flush(t1) + [g], Flush(t2), TestMap, EnUS, Tests);
    RenderAppend(Flush(t1), [g], TestMap, EnUS, Tests);
    RenderSingle(g, TestMap, EnUS, Tests);
    RenderFlush(t1, TestMap);
    RenderFlush(t2, TestMap);
  }

  /** Text, a placeholder on a plain expression, text: the expression's value between the texts. */
  lemma ExpandAround(t1: string, e: string, t2: string)
    requires NoMarkup(t1) && NoMarkup(t2)
    requires e != "" && NoMarkup(e) && '?' !in e && Balanced(e)
    ensures ExpandString(Compile(Some(t1 + "${" + e + "}" + t2)), Some(TestMap), EnUS, Tests)
         == t1 + ValueText(TestEval(TestMap, e), EnUS, Tests) + t2
    ensures t1 != "" || t2 != "" ==>
      Expand(Compile(Some(t1 + "${" + e + "}" + t2)), Some(TestMap), EnUS, Tests)
      == Some(Str(t1 + ValueText(TestEval(TestMap, e), EnUS, Tests) + t2))
  {
    ExpandAroundSegment(t1, e, t2);
    PlainBody(e);
    RenderName(e, TestMap);
  }

  lemma HelloText()
    ensures NoMarkup("Hello ") && NoMarkup("!") && PlainScript("var") && Balanced("var")
  {
    BraceFreeBalanced("var");
  }

  /** `Hello ${var}!` */
  const HelloVarInput: string := "Hello " + "${" + "var" + "}" + "!"

  // FlexibleStringExpanderTests.java:280
  lemma HelloVar()
    ensures ExpandString(Compile(Some(HelloVarInput)), Some(TestMap), EnUS, Tests) == "Hello World!"
    ensures Expand(Compile(Some(HelloVarInput)), Some(TestMap), EnUS, Tests) == Some(Str("Hello World!"))
  {
    HelloText();
    ExpandAround("Hello ", "var", "!");
    VarIsWorld();
    assert "Hello " + "World" + "!" == "Hello World!";
  }

  lemma MapVarText()
    ensures PlainScript("testMap.var") && ValueText(TestEval(TestMap, "testMap.var"), EnUS, Tests) == "World"
  {
  }

  lemma ListText()
    ensures PlainScript("testList[0]") && ValueText(TestEval(TestMap, "testList[0]"), EnUS, Tests) == "World"
  {
  }

  // FlexibleStringExpanderTests.java:318
  /** A map entry reached by a property path. */
  lemma MapLookup()
    ensures ExpandString(Compile(Some("Hello " + "${" + "testMap.var" + "}" + "!")), Some(TestMap), EnUS, Tests)
         == "Hello World!"
    ensures Expand(Compile(Some("Hello " + "${" + "testMap.var" + "}" + "!")), Some(TestMap), EnUS, Tests)
         == Some(Str("Hello World!"))
  {
    MapVarText();
    HelloText();
    LookupAround("Hello ", "testMap.var", "!", "World");
    assert "Hello " + "World" + "!" == "Hello World!";
  }

  // FlexibleStringExpanderTests.java:320
  /** A list element reached by an index. */
  lemma ListLookup()
    ensures ExpandString(Compile(Some("Hello " + "${" + "testList[0]" + "}" + "!")), Some(TestMap), EnUS, Tests)
         == "Hello World!"
    ensures Expand(Compile(Some("Hello " + "${" + "testList[0]" + "}" + "!")), Some(TestMap), EnUS, Tests)
         == Some(Str("Hello World!"))
  {
    ListText();
    HelloText();
    LookupAround("Hello ", "testList[0]", "!", "World");
    assert "Hello " + "World" + "!" == "Hello World!";
  }

  lemma BlankText()
    ensures NoMarkup("Hello ") && NoMarkup("World!") && PlainScript("testMap.blank")
    ensures ValueText(TestEval(TestMap, "testMap.blank"), EnUS, Tests) == ""
  {
  }

  /** `Hello ${testMap.blank}World!` */
  const BlankInput: string := "Hello " + "${" + "testMap.blank" + "}" + "World!"

  // FlexibleStringExpanderTests.java:319
  /** A blank value contributes nothing: the texts around it close up. */
  lemma BlankLookup()
    ensures ExpandString(Compile(Some(BlankInput)), Some(TestMap), EnUS, Tests) == "Hello World!"
    ensures Expand(Compile(Some(BlankInput)), Some(TestMap), EnUS, Tests) == Some(Str("Hello World!"))
  {
    BlankText();
    LookupAround("Hello ", "testMap.blank", "World!", "");
    assert BlankInput == "Hello " + "${" + "testMap.blank" + "}" + "World!";
    assert "Hello " + "" + "World!" == "Hello World!";
  }

  /** A plain lookup between two texts, given the text of its value. */
  lemma LookupAround(t1: string, e: string, t2: string, v: string)
    requires NoMarkup(t1) && NoMarkup(t2) && t1 != ""
    requires e != "" && PlainScript(e) && ValueText(TestEval(TestMap, e), EnUS, Tests) == v
    ensures ExpandString(Compile(Some(t1 + "${" + e + "}" + t2)), Some(TestMap), EnUS, Tests) == t1 + v + t2
    ensures Expand(Compile(Some(t1 + "${" + e + "}" + t2)), Some(TestMap), EnUS, Tests) == Some(Str(t1 + v + t2))
  {
    BraceFreeBalanced(e);
    ExpandAround(t1, e, t2);
  }

  lemma VarIsWorld()
    ensures ValueText(TestEval(TestMap, "var"), EnUS, Tests) == "World"
  {
  }

  /** The empty expression resolves to nothing. */
  lemma EmptyFails()
    ensures TestEval(TestMap, "") == None
  {
  }

  /** `${foobar`: an introducer that is never closed. */
  const Foobar: string := "${" + "foobar"

  /** `Hello ${var}${foobar` */
  const GoodAndBadInput: string := "Hello " + "${" + "var" + "}" + Foobar

  // FlexibleStringExpanderTests.java:296
  lemma ParseGoodAndBad()
    ensures Parse(GoodAndBadInput) == [Text("Hello "), Placeholder([Text("var")]), Text(Foobar)]
  {
    HelloText();
    MatchCloseNoClose(Foobar, 2, 1);
    ParseTextPlaceholderUnterminated("Hello ", "var", Foobar);
    PlainBody("var");
  }

  /** The unterminated placeholder renders literally; the earlier one still expands. */
  lemma GoodAndBad()
    ensures ExpandString(Compile(Some(GoodAndBadInput)), Some(TestMap), EnUS, Tests) == "Hello World" + Foobar
    ensures Expand(Compile(Some(GoodAndBadInput)), Some(TestMap), EnUS, Tests) == Some(Str("Hello World" + Foobar))
  {
    ParseGoodAndBad();
    RenderTriple(Text("Hello "), Placeholder([Text("var")]), Text(Foobar), TestMap);
    RenderName("var", TestMap);
    VarIsWorld();
    assert "Hello " + "World" + Foobar == "Hello World" + Foobar;
    ExpandRendered(Compile(Some(GoodAndBadInput)), TestMap, EnUS, Tests);
  }

  // FlexibleStringExpanderTests.java:294-295
  lemma JustBad()
    ensures ExpandString(Compile(Some(Foobar)), Some(TestMap), EnUS, Tests) == Foobar
    ensures Expand(Compile(Some(Foobar)), Some(TestMap), EnUS, Tests) == Some(Str(Foobar))
    ensures ExpandString(Compile(Some("Hello" + Foobar)), Some(TestMap), EnUS, Tests) == "Hello" + Foobar
    ensures Expand(Compile(Some("Hello" + Foobar)), Some(TestMap), EnUS, Tests) == Some(Str("Hello" + Foobar))
  {
    MatchCloseNoClose(Foobar, 2, 1);
    ScanUnterminated(Foobar, "");
    UnterminatedRendersLiterally(Foobar, "", TestMap, EnUS, Tests);
    ExpandRendered(Compile(Some(Foobar)), TestMap, EnUS, Tests);
    ScanPlain("Hello", Foobar, "");
    assert "" + "Hello" == "Hello";
    ScanUnterminated(Foobar, "Hello");
    UnterminatedRendersLiterally(Foobar, "Hello", TestMap, EnUS, Tests);
    ExpandRendered(Compile(Some("Hello" + Foobar)), TestMap, EnUS, Tests);
  }

  // FlexibleStringExpanderTests.java:326
  /** `This is an \${escaped} expression` */
  const EscapedInput: string := "This is an " + "\\${" + "escaped" + "}" + " expression"

  lemma ParseEscaped()
    ensures Parse(EscapedInput) == [Text("This is an "), Escaped("escaped"), Text(" expression")]
  {
    EscapedText();
    ParseTextEscapedText("This is an ", "escaped", " expression");
  }

  lemma EscapedText()
    ensures NoMarkup("This is an ") && NoMarkup(" expression") && Balanced("escaped")
  {
    BraceFreeBalanced("escaped");
  }

  /** An escaped placeholder renders without its backslash, unevaluated; the original keeps it. */
  lemma EscapedExpression()
    ensures ExpandString(Compile(Some(EscapedInput)), Some(TestMap), EnUS, Tests)
         == "This is an " + "${" + "escaped" + "}" + " expression"
    ensures Expand(Compile(Some(EscapedInput)), Some(TestMap), EnUS, Tests)
         == Some(Str("This is an " + "${" + "escaped" + "}" + " expression"))
    ensures Original(Compile(Some(EscapedInput))) == EscapedInput
  {
    ParseEscaped();
    RenderTriple(Text("This is an "), Escaped("escaped"), Text(" expression"), TestMap);
    ExpandRendered(Compile(Some(EscapedInput)), TestMap, EnUS, Tests);
    ShowParse(EscapedInput);
  }

  /** `${name}` as a placeholder body: balanced, and a placeholder around the name's placeholder. */
  lemma NestedName(name: string)
    requires name != "" && NoMarkup(name) && BraceFree(name) && '?' !in name
    ensures Balanced("${" + name + "}")
    ensures CompileBody("${" + name + "}") == Placeholder([Placeholder([Text(name)])])
  {
    NamePlaceholder(name);
    var b := "${" + name + "}";
    assert forall k :: 0 <= k < |b| ==> b[k] == '$' || b[k] == '{' || b[k] == '}' || b[k] == name[k - 2];
    NoCurrency(b);
  }

  // FlexibleStringExpanderTests.java:303
  /** `${${nullVar}}!` */
  const NullNestedInput: string := "${" + "${" + "nullVar" + "}" + "}" + "!"

  /** A null inner value leaves the outer expression empty, which fails in turn: only `!` remains. */
  lemma NullNested()
    ensures ExpandString(Compile(Some(NullNestedInput)), Some(TestMap), EnUS, Tests) == "!"
    ensures Expand(Compile(Some(NullNestedInput)), Some(TestMap), EnUS, Tests) == Some(Str("!"))
  {
    var inner := "${" + "nullVar" + "}";
    assert NullNestedInput == "" + "${" + inner + "}" + "!";
    NullVarText();
    NestedName("nullVar");
    ExpandAroundSegment("", inner, "!");
    NullVarRenders();
    assert "" + "" + "!" == "!";
  }

  /** `${${nullVar}}`'s body renders as nothing. */
  lemma NullVarRenders()
    ensures RenderSegment(Placeholder([Placeholder([Text("nullVar")])]), TestMap, EnUS, Tests) == ""
  {
    var g := Placeholder([Text("nullVar")]);
    RenderSingle(g, TestMap, EnUS, Tests);
    RenderName("nullVar", TestMap);
    NullVarText();
    EmptyFails();
  }

  lemma NullVarText()
    ensures NoMarkup("") && NoMarkup("!") && PlainScript("nullVar") && TestEval(TestMap, "nullVar") == None
  {
    assert "nullVar"[0] != '\'';
  }

  /** A body made of a plain value, the currency marker and a `${name}` code is balanced. */
  lemma CurrencyOfNameBalanced(v: string, name: string)
    requires BraceFree(v) && BraceFree(name)
    ensures Balanced(v + CurrencyMarker + "${" + name + "}" + ")")
  {
    var code := "${" + name + "}";
    assert v + CurrencyMarker + "${" + name + "}" + ")" == (v + CurrencyMarker) + code + ")";
    BraceFreeBalanced(name);
    BalancedNested(name);
    BraceFreeBalanced(v);
    BraceFreeBalanced(CurrencyMarker);
    BraceFreeBalanced(")");
    BalancedAppend(v, CurrencyMarker);
    BalancedAppend(v + CurrencyMarker, code);
    BalancedAppend(v + CurrencyMarker + code, ")");
  }

  /** Such a body compiles to a currency placeholder on the value, coded by the name. */
  lemma CurrencyOfName(v: string, name: string)
    requires v != "" && NoMarkup(v) && '?' !in v
    requires name != "" && NoMarkup(name) && BraceFree(name) && '?' !in name && ')' !in name
    ensures CompileBody(v + CurrencyMarker + "${" + name + "}" + ")")
         == Currency(Flush(v), [Placeholder([Text(name)])])
  {
    var code := "${" + name + "}";
    assert v + CurrencyMarker + "${" + name + "}" + ")" == v + CurrencyMarker + code + ")";
    assert ')' !in code by {
      assert code == "${" + name + "}";
    }
    CurrencyBody(v, code);
    NamePlaceholder(name);
    ScanPlainEnd(v, "");
    assert "" + v == v;
  }

  /** `amount?currency(${usd})` */
  const AmountUsd: string := "amount" + CurrencyMarker + "${" + "usd" + "}" + ")"

  /** `testMap.missing?currency(${usd})` */
  const MissingUsd: string := "testMap.missing" + CurrencyMarker + "${" + "usd" + "}" + ")"

  lemma AmountUsdBody()
    ensures Balanced(AmountUsd)
    ensures CompileBody(AmountUsd) == Currency([Text("amount")], [Placeholder([Text("usd")])])
  {
    CurrencyOfNameBalanced("amount", "usd");
    CurrencyOfName("amount", "usd");
  }

  lemma MissingUsdBody()
    ensures Balanced(MissingUsd)
    ensures CompileBody(MissingUsd) == Currency([Text("testMap.missing")], [Placeholder([Text("usd")])])
  {
    CurrencyOfNameBalanced("testMap.missing", "usd");
    CurrencyOfName("testMap.missing", "usd");
  }

  /** The `usd` code renders as `USD`. */
  lemma UsdCode()
    ensures Render([Placeholder([Text("usd")])], TestMap, EnUS, Tests) == "USD"
  {
    RenderSingle(Placeholder([Text("usd")]), TestMap, EnUS, Tests);
    RenderName("usd", TestMap);
  }

  lemma AmountUsdRenders()
    ensures RenderSegment(Currency([Text("amount")], [Placeholder([Text("usd")])]), TestMap, EnUS, Tests)
         == "$1,234,567.89"
  {
    UsdCode();
    RenderSingle(Text("amount"), TestMap, EnUS, Tests);
  }

  lemma MissingNotInMap()
    ensures TestEval(TestMap, "testMap.missing") == None
  {
    assert "testMap.missing"[0] != '\'';
  }

  lemma MissingUsdRenders()
    ensures RenderSegment(Currency([Text("testMap.missing")], [Placeholder([Text("usd")])]), TestMap, EnUS, Tests)
         == ""
  {
    UsdCode();
    RenderSingle(Text("testMap.missing"), TestMap, EnUS, Tests);
    MissingNotInMap();
  }

  // FlexibleStringExpanderTests.java:297
  lemma PlainCurrency()
    ensures ExpandString(Compile(Some("${" + AmountUsd + "}")), Some(TestMap), EnUS, Tests) == "$1,234,567.89"
    ensures Expand(Compile(Some("${" + AmountUsd + "}")), Some(TestMap), EnUS, Tests) == Some(Str("$1,234,567.89"))
  {
    AmountUsdBody();
    LoneBody(AmountUsd);
    var g := Currency([Text("amount")], [Placeholder([Text("usd")])]);
    RenderSingle(g, TestMap, EnUS, Tests);
    AmountUsdRenders();
    UsdCode();
    RenderSingle(Text("amount"), TestMap, EnUS, Tests);
  }

  lemma TotalText()
    ensures NoMarkup("The total is ") && NoMarkup(".")
  {
  }

  // FlexibleStringExpanderTests.java:298
  lemma TotalCurrency()
    ensures ExpandString(Compile(Some("The total is " + "${" + AmountUsd + "}" + ".")), Some(TestMap), EnUS, Tests)
         == "The total is " + "$1,234,567.89" + "."
    ensures Expand(Compile(Some("The total is " + "${" + AmountUsd + "}" + ".")), Some(TestMap), EnUS, Tests)
         == Some(Str("The total is " + "$1,234,567.89" + "."))
  {
    TotalText();
    AmountUsdBody();
    ExpandAroundSegment("The total is ", AmountUsd, ".");
    AmountUsdRenders();
  }

  // FlexibleStringExpanderTests.java:299
  lemma MissingCurrency()
    ensures ExpandString(Compile(Some("The total is " + "${" + MissingUsd + "}" + ".")), Some(TestMap), EnUS, Tests)
         == "The total is ."
    ensures Expand(Compile(Some("The total is " + "${" + MissingUsd + "}" + ".")), Some(TestMap), EnUS, Tests)
         == Some(Str("The total is ."))
  {
    TotalText();
    MissingUsdBody();
    ExpandAroundSegment("The total is ", MissingUsd, ".");
    MissingUsdRenders();
    assert "The total is " + "" + "." == "The total is .";
  }

  /** Every key of the test map starts with one of `v`, `u`, `a`, `e`, `g`, or with `te`. */
  lemma NotKey(e: string)
    requires e != "" && e[0] !in "vuaeg"
    requires e[0] == 't' ==> |e| > 1 && e[1] != 'e'
    ensures e !in TestMap
  {
    assert OneBracket[0] == 'g';
    assert TwoBrackets[0] == 'g';
  }

  /** An expression that is not a key and not quoted fails. */
  lemma Unresolved(e: string)
    requires e != "" && e[0] !in "vuaeg'"
    requires e[0] == 't' ==> |e| > 1 && e[1] != 'e'
    ensures TestEval(TestMap, e) == None
  {
    NotKey(e);
  }

  /** A single-quoted literal evaluates to its contents. */
  lemma Quoted(x: string)
    ensures TestEval(TestMap, "'" + x + "'") == Some(StrValue(x))
  {
    var e := "'" + x + "'";
    NotKey(e);
    assert e[1..|e| - 1] == x;
  }

  /** Text, a placeholder on a plain name, text: balanced, and parsed into those three parts. */
  lemma TextNameText(t1: string, name: string, t2: string)
    requires NoMarkup(t1) && BraceFree(t1) && '?' !in t1
    requires name != "" && NoMarkup(name) && BraceFree(name) && '?' !in name
    requires NoMarkup(t2) && BraceFree(t2) && '?' !in t2
    ensures Balanced(t1 + "${" + name + "}" + t2)
    ensures CompileBody(t1 + "${" + name + "}" + t2) == Placeholder(Flush(t1) + [Placeholder([Text(name)])] + Flush(t2))
  {
    var b := t1 + "${" + name + "}" + t2;
    TextNameTextBalanced(t1, name, t2);
    BraceFreeBalanced(name);
    NoCurrency(b);
    ParseTextPlaceholderText(t1, name, t2);
    PlainBody(name);
  }

  lemma TextNameTextBalanced(t1: string, name: string, t2: string)
    requires BraceFree(t1) && BraceFree(name) && BraceFree(t2)
    ensures Balanced(t1 + "${" + name + "}" + t2)
  {
    BraceFreeBalanced(t1);
    BraceFreeBalanced(name);
    BraceFreeBalanced(t2);
    BalancedNested(name);
    assert t1 + "${" + name + "}" + t2 == t1 + ("${" + name + "}") + t2;
    BalancedAppend(t1, "${" + name + "}");
    BalancedAppend(t1 + ("${" + name + "}"), t2);
  }

  /** `'Hello ${var}'` */
  const QuotedHello: string := "'Hello " + "${" + "var" + "}" + "'"

  lemma QuotedHelloBody()
    ensures Balanced(QuotedHello)
    ensures CompileBody(QuotedHello) == Placeholder([Text("'Hello "), Placeholder([Text("var")]), Text("'")])
  {
    TextNameText("'Hello ", "var", "'");
  }

  lemma QuotedHelloRenders()
    ensures RenderSegment(CompileBody(QuotedHello), TestMap, EnUS, Tests) == "Hello World"
  {
    QuotedHelloBody();
    var e := [Text("'Hello "), Placeholder([Text("var")]), Text("'")];
    RenderTriple(Text("'Hello "), Placeholder([Text("var")]), Text("'"), TestMap);
    RenderName("var", TestMap);
    VarIsWorld();
    QuotedHelloWorld();
    assert Render(e, TestMap, EnUS, Tests) == "'" + "Hello World" + "'";
  }

  lemma QuotedHelloWorld()
    ensures "'Hello " + "World" + "'" == "'" + "Hello World" + "'"
    ensures TestEval(TestMap, "'" + "Hello World" + "'") == Some(StrValue("Hello World"))
  {
    Quoted("Hello World");
  }

  // FlexibleStringExpanderTests.java:287
  /** A placeholder nested inside a quoted literal is expanded before the literal is evaluated. */
  lemma VisibleNested()
    ensures ExpandString(Compile(Some("${" + QuotedHello + "}" + "!")), Some(TestMap), EnUS, Tests) == "Hello World!"
    ensures Expand(Compile(Some("${" + QuotedHello + "}" + "!")), Some(TestMap), EnUS, Tests) == Some(Str("Hello World!"))
  {
    QuotedHelloBody();
    HelloText();
    assert "${" + QuotedHello + "}" + "!" == "" + "${" + QuotedHello + "}" + "!";
    ExpandAroundSegment("", QuotedHello, "!");
    QuotedHelloRenders();
    assert "" + "Hello World" + "!" == "Hello World!";
  }

  /** `a${'moun'}t` */
  const SplitAmount: string := "a" + "${" + "'moun'" + "}" + "t"

  lemma SplitAmountBody()
    ensures Balanced(SplitAmount)
    ensures CompileBody(SplitAmount) == Placeholder([Text("a"), Placeholder([Text("'moun'")]), Text("t")])
  {
    TextNameText("a", "'moun'", "t");
  }

  lemma SplitAmountExpression()
    ensures Render([Text("a"), Placeholder([Text("'moun'")]), Text("t")], TestMap, EnUS, Tests) == "amount"
  {
    RenderTriple(Text("a"), Placeholder([Text("'moun'")]), Text("t"), TestMap);
    RenderName("'moun'", TestMap);
    MounText();
    assert "a" + "moun" + "t" == "amount";
  }

  lemma MounText()
    ensures ValueText(TestEval(TestMap, "'moun'"), EnUS, Tests) == "moun"
  {
    Quoted("moun");
    assert "'" + "moun" + "'" == "'moun'";
  }

  // FlexibleStringExpanderTests.java:335-336
  /** The expression is assembled from a nested placeholder, then resolved to the typed amount. */
  lemma NestedAmount()
    ensures Expand(Compile(Some("${" + SplitAmount + "}")), Some(TestMap), EnUS, Tests) == Some(Typed(Amount))
    ensures ExpandString(Compile(Some("${" + SplitAmount + "}")), Some(TestMap), EnUS, Tests) == "1,234,567.89"
  {
    SplitAmountBody();
    LoneBody(SplitAmount);
    SplitAmountExpression();
    RenderSingle(CompileBody(SplitAmount), TestMap, EnUS, Tests);
  }

  // FlexibleStringExpanderTests.java:337-338
  /** A lone placeholder returns its value itself, not its text. */
  lemma LoneAmount()
    ensures Expand(Compile(Some("${" + "amount" + "}")), Some(TestMap), EnUS, Tests) == Some(Typed(Amount))
    ensures ExpandString(Compile(Some("${" + "amount" + "}")), Some(TestMap), EnUS, Tests) == "1,234,567.89"
  {
    NamePlaceholder("amount");
    RenderSingle(Text("amount"), TestMap, EnUS, Tests);
    RenderSingle(Placeholder([Text("amount")]), TestMap, EnUS, Tests);
  }

  // FlexibleStringExpanderTests.java:284
  /** A lone failing placeholder on a plain expression expands to null. */
  lemma LoneFailure()
    ensures Expand(Compile(Some("${" + "throwException.value" + "}")), Some(TestMap), EnUS, Tests) == None
    ensures ExpandString(Compile(Some("${" + "throwException.value" + "}")), Some(TestMap), EnUS, Tests) == ""
  {
    ThrowText();
    NamePlaceholder("throwException.value");
    RenderSingle(Text("throwException.value"), TestMap, EnUS, Tests);
    RenderSingle(Placeholder([Text("throwException.value")]), TestMap, EnUS, Tests);
  }

  lemma ThrowText()
    ensures PlainScript("throwException.value")
    ensures TestEval(TestMap, "throwException.value") == None
  {
    Unresolved("throwException.value");
  }

  /** `throw${exc}.value` */
  const ThrowExc: string := "throw" + "${" + "exc" + "}" + ".value"

  lemma ThrowExcBody()
    ensures Balanced(ThrowExc)
    ensures CompileBody(ThrowExc) == Placeholder([Text("throw"), Placeholder([Text("exc")]), Text(".value")])
  {
    TextNameText("throw", "exc", ".value");
  }

  lemma ThrowExcFails()
    ensures TestEval(TestMap, Render([Text("throw"), Placeholder([Text("exc")]), Text(".value")], TestMap, EnUS, Tests)) == None
  {
    RenderTriple(Text("throw"), Placeholder([Text("exc")]), Text(".value"), TestMap);
    RenderName("exc", TestMap);
    Unresolved("throw" + "Exception" + ".value");
  }

  // FlexibleStringExpanderTests.java:285
  /** A lone failing placeholder whose expression was built from placeholders expands to the empty string. */
  lemma NestedFailure()
    ensures Expand(Compile(Some("${" + ThrowExc + "}")), Some(TestMap), EnUS, Tests) == Some(Str(""))
    ensures ExpandString(Compile(Some("${" + ThrowExc + "}")), Some(TestMap), EnUS, Tests) == ""
  {
    ThrowExcBody();
    LoneBody(ThrowExc);
    ThrowExcFails();
    RenderSingle(CompileBody(ThrowExc), TestMap, EnUS, Tests);
    assert !Flat(CompileBody(ThrowExc).expr) by {
      assert CompileBody(ThrowExc).expr[1] == Placeholder([Text("exc")]);
    }
  }

  /**
   * Script text followed by a braced block: still free of markup and of `?`, and balanced when
   * the block's contents are.
   */
  lemma Block(lead: string, inner: string)
    requires NoMarkup(lead) && BraceFree(lead) && '?' !in lead
    requires NoMarkup(inner) && Balanced(inner) && '?' !in inner
    ensures NoMarkup(lead + "{" + inner + "}") && '?' !in lead + "{" + inner + "}"
    ensures Balanced(lead + "{" + inner + "}")
  {
    var w := "{" + inner + "}";
    var b := lead + "{" + inner + "}";
    assert b == lead + w;
    BalancedWrap(inner);
    BraceFreeBalanced(lead);
    BalancedAppend(lead, w);
    forall i | 0 <= i < |b| ensures b[i] != '$' && b[i] != '\\' {
      if i < |lead| {
        assert b[i] == lead[i];
      } else if |lead| < i < |lead| + 1 + |inner| {
        assert b[i] == inner[i - |lead| - 1];
      }
    }
  }

  /** Script text with neither markup, braces nor `?`. */
  predicate PlainScript(x: string) {
    NoMarkup(x) && BraceFree(x) && '?' !in x
  }

  lemma GroovyIf()
    ensures PlainScript("groovy: if (true) ") && PlainScript("if (true) ")
  {
  }

  lemma Returns()
    ensures PlainScript("return 'bracket'") && PlainScript("return 'with 2 " + "brackets'")
  {
  }

  lemma OneBracketPlain()
    ensures NoMarkup(OneBracket) && '?' !in OneBracket && Balanced(OneBracket)
  {
    var inner := "return 'bracket'";
    Returns();
    GroovyIf();
    BraceFreeBalanced(inner);
    Block("groovy: if (true) ", inner);
  }

  lemma TwoBracketsPlain()
    ensures NoMarkup(TwoBrackets) && '?' !in TwoBrackets && Balanced(TwoBrackets)
  {
    var inner := "return 'with 2 " + "brackets'";
    var guard := "if (true) ";
    Returns();
    GroovyIf();
    BraceFreeBalanced(inner);
    Block(guard, inner);
    Block("groovy: if (true) ", guard + "{" + inner + "}");
    assert TwoBrackets == "groovy: if (true) " + "{" + (guard + "{" + inner + "}") + "}";
  }

  /** The two scripts are distinct keys of the test map. */
  lemma ScriptLookups()
    ensures TestEval(TestMap, OneBracket) == Some(StrValue("bracket"))
    ensures TestEval(TestMap, TwoBrackets) == Some(StrValue("with 2 " + "brackets"))
  {
    assert OneBracket[19] != TwoBrackets[19];
  }

  lemma GroovyText()
    ensures NoMarkup("This is a groovy ") && NoMarkup(" expression")
  {
  }

  // FlexibleStringExpanderTests.java:328-329
  /** Braces inside a placeholder are matched, so the script ends at its own closing brace. */
  lemma BracketScript()
    ensures ExpandString(Compile(Some("This is a groovy " + "${" + OneBracket + "}" + " expression")), Some(TestMap), EnUS, Tests)
         == "This is a groovy " + "bracket" + " expression"
    ensures Expand(Compile(Some("This is a groovy " + "${" + OneBracket + "}" + " expression")), Some(TestMap), EnUS, Tests)
         == Some(Str("This is a groovy " + "bracket" + " expression"))
  {
    OneBracketPlain();
    assert OneBracket[0] == 'g';
    GroovyText();
    ExpandAround("This is a groovy ", OneBracket, " expression");
    ScriptLookups();
  }

  // FlexibleStringExpanderTests.java:330-331
  lemma TwoBracketScript()
    ensures ExpandString(Compile(Some("This is a groovy " + "${" + TwoBrackets + "}" + " expression")), Some(TestMap), EnUS, Tests)
         == "This is a groovy " + "with 2 " + "brackets" + " expression"
    ensures Expand(Compile(Some("This is a groovy " + "${" + TwoBrackets + "}" + " expression")), Some(TestMap), EnUS, Tests)
         == Some(Str("This is a groovy " + "with 2 " + "brackets" + " expression"))
  {
    TwoBracketsPlain();
    assert TwoBrackets[0] == 'g';
    GroovyText();
    ExpandAround("This is a groovy ", TwoBrackets, " expression");
    ScriptLookups();
  }
}

=== FILE: nullable.dfy ===
/** Java's nullable references and thrown exceptions, as explicit datatypes shared by every module. */
module Nullable {

  /** `None` stands for Java's `null`. */
  datatype Option<+T> = None | Some(value: T) {

    /** The wrapped value, or `default` when this is `None`. */
    function GetOr(default: T): T {
      match this
      case Some(v) => v
      case None => default
    }
  }

  /** The runtime exceptions the modelled helpers throw. */
  datatype Exception = IllegalArgument | NullPointer

  /** A call that either returns a value or throws. */
  datatype Result<+T> = Ok(value: T) | Thrown(error: Exception)
}

=== FILE: template.dfy ===
/**
 * The compiled form of a flexible-string template and its lenient, nesting-aware parser.
 *
 * A raw string such as `Hello ${user.name}!` compiles into a sequence of segments: literal text,
 * escaped placeholders (`\${...}`, shown but never evaluated) and placeholders whose expression is
 * itself a compiled template, optionally followed by a `?currency(code)` directive. Parsing never
 * fails: an unmatched `${` turns itself and the rest of the input into literal text.
 */
module Template {
  import opened Nullable
  import opened Braces

  datatype Segment =
    | Text(text: string)
      /** `\${body}`: the backslash suppresses evaluation of the matched span. */
    | Escaped(body: string)
      /** `${expr}`: the expression may itself hold placeholders. */
    | Placeholder(expr: seq<Segment>)
      /** `${value?currency(code)}`: both parts are templates of their own. */
    | Currency(value: seq<Segment>, code: seq<Segment>)

  type Template = seq<Segment>

  const CurrencyMarker: string := "?currency("

  /** `s` starts with the placeholder introducer `${`. */
  predicate OpensAt(s: string) {
    |s| >= 2 && s[0] == '$' && s[1] == '{'
  }

  /** `s` starts with the escaped introducer `\${`. */
  predicate EscapeAt(s: string) {
    |s| >= 3 && s[0] == '\\' && s[1] == '$' && s[2] == '{'
  }

  /** `s` holds neither `$` nor `\`, so no placeholder can start inside it. */
  predicate NoMarkup(s: string) {
    forall i :: 0 <= i < |s| ==> s[i] != '$' && s[i] != '\\'
  }

  /** `pat` occurs in `s` at index `k`. */
  predicate OccursAt(s: string, pat: string, k: nat) {
    k + |pat| <= |s| && s[k..k + |pat|] == pat
  }

  /** The first index at or after `from` where `pat` occurs in `s`. */
  function IndexOf(s: string, pat: string, from: nat): (r: Option<nat>)
    requires from <= |s|
    ensures r.Some? ==> from <= r.value && OccursAt(s, pat, r.value)
    ensures forall k :: from <= k && (r.Some? ==> k < r.value) ==> !OccursAt(s, pat, k)
    decreases |s| - from
  {
    if |s| - from < |pat| then None
    else if s[from..from + |pat|] == pat then Some(from)
    else IndexOf(s, pat, from + 1)
  }

  /**
   * Splits a body `value` + `m` + `code` + `)`: `m` is the first occurrence of the marker in the
   * body, the value part is not empty and the first `)` after the marker ends the body.
   */
  function SplitOnMarker(body: string, m: string): (r: Option<(string, string)>)
    ensures r.Some? ==> body == r.value.0 + m + r.value.1 + ")"
    ensures r.Some? ==> r.value.0 != "" && ')' !in r.value.1
    ensures r.Some? ==> forall k: nat :: k < |r.value.0| ==> !OccursAt(body, m, k)
  {
    match IndexOf(body, m, 0)
    case None => None
    case Some(p) =>
      var rest := body[p + |m|..];
      match IndexOf(rest, ")", 0)
      case None => None
      case Some(q) =>
        if p > 0 && q == |rest| - 1 then
          MarkerParts(body, m, p, rest, q);
          Some((body[..p], rest[..q]))
        else None
  }

  /** Splits a placeholder body `value?currency(code)` into its value and code. */
  function SplitCurrency(body: string): Option<(string, string)> {
    SplitOnMarker(body, CurrencyMarker)
  }

  /** The marker at `p` and a first `)` that ends the body cut it into value, marker, code and `)`. */
  lemma MarkerParts(body: string, m: string, p: nat, rest: string, q: nat)
    requires OccursAt(body, m, p) && rest == body[p + |m|..]
    requires q == |rest| - 1 && OccursAt(rest, ")", q)
    requires forall k :: 0 <= k < q ==> !OccursAt(rest, ")", k)
    ensures body == body[..p] + m + rest[..q] + ")"
    ensures ')' !in rest[..q]
  {
    assert body[p..p + |m|] == m;
    assert rest == rest[..q] + ")";
    assert body == body[..p] + body[p..p + |m|] + rest;
    forall k | 0 <= k < q ensures rest[..q][k] != ')' {
      assert !OccursAt(rest, ")", k);
      assert rest[k..k + 1] == [rest[k]];
    }
  }

  /** Pending literal text becomes a segment unless it is empty. */
  function Flush(lit: string): (t: Template)
    ensures lit == "" ==> t == []
    ensures lit != "" <==> |t| == 1
    ensures forall g :: g in t ==> g == Text(lit)
  {
    if lit == "" then [] else [Text(lit)]
  }

  /** Compiles a raw template string. */
  function Parse(s: string): (t: Template)
    ensures t == [] <==> s == ""
    decreases |s|, 3
  {
    ScanEmpty(s, "");
    Scan(s, "")
  }

  /** Compiles `s`, where `lit` is the literal text read just before it and not yet emitted. */
  function Scan(s: string, lit: string): Template
    decreases |s|, 0
  {
    if |s| == 0 then Flush(lit)
    else if EscapeAt(s) then
      match MatchClose(s, 3, 1)
      case Some(j) => Flush(lit) + [Escaped(s[3..j])] + Scan(s[j + 1..], "")
      case None => Flush(lit + s)
    else if OpensAt(s) then
      match MatchClose(s, 2, 1)
      case Some(j) => Flush(lit) + [CompileBody(s[2..j])] + Scan(s[j + 1..], "")
      case None => Flush(lit + s)
    else Scan(s[1..], lit + [s[0]])
  }

  /** The segment for the body of a closed `${...}`. */
  function CompileBody(body: string): (g: Segment)
    ensures g.Placeholder? || g.Currency?
    decreases |body|, 4
  {
    match SplitCurrency(body)
    case Some((v, c)) => Currency(Parse(v), Parse(c))
    case None => Placeholder(Parse(body))
  }

  /** Re-serializes a compiled template to raw text. */
  function Show(t: Template): string
    decreases t
  {
    if |t| == 0 then "" else ShowSegment(t[0]) + Show(t[1..])
  }

  function ShowSegment(g: Segment): string
    decreases g
  {
    match g
    case Text(x) => x
    case Escaped(b) => "\\${" + b + "}"
    case Placeholder(e) => "${" + Show(e) + "}"
    case Currency(v, c) => "${" + Show(v) + CurrencyMarker + Show(c) + ")}"
  }

  /** The compiled form is empty exactly for the empty input: any character leaves a segment. */
  lemma {:induction false} ScanEmpty(s: string, lit: string)
    ensures Scan(s, lit) == [] <==> s == "" && lit == ""
    decreases |s|, 2
  {
    if |s| > 0 && !EscapeAt(s) && !OpensAt(s) {
      ScanPlainStep(s, lit);
      ScanEmpty(s[1..], lit + [s[0]]);
    }
  }

  /** Only empty literals show as nothing: every placeholder leaves at least its `${...}` behind. */
  lemma {:induction false} ShowEmpty(t: Template)
    ensures Show(t) == "" <==> forall i :: 0 <= i < |t| ==> t[i] == Text("")
    decreases |t|
  {
    if |t| > 0 {
      ShowEmpty(t[1..]);
      assert forall i :: 1 <= i < |t| ==> t[i] == t[1..][i - 1];
    }
  }

  lemma {:induction false} ShowAppend(a: Template, b: Template)
    ensures Show(a + b) == Show(a) + Show(b)
    decreases |a|
  {
    if |a| > 0 {
      assert (a + b)[0] == a[0];
      assert (a + b)[1..] == a[1..] + b;
      ShowAppend(a[1..], b);
    } else {
      assert a + b == b;
    }
  }

  /** The compiler is information-preserving: re-serializing the compiled form gives the input. */
  lemma {:induction false} ShowParse(s: string)
    ensures Show(Parse(s)) == s
    decreases |s|, 1
  {
    ShowScan(s, "");
  }

  lemma {:induction false} ShowScan(s: string, lit: string)
    ensures Show(Scan(s, lit)) == lit + s
    decreases |s|, 0
  {
    if |s| == 0 {
      ShowFlush(lit);
    } else if EscapeAt(s) && MatchClose(s, 3, 1).Some? {
      var j := MatchClose(s, 3, 1).value;
      ShowScan(s[j + 1..], "");
      ShowScanEscaped(s, lit, j);
    } else if !EscapeAt(s) && OpensAt(s) && MatchClose(s, 2, 1).Some? {
      var j := MatchClose(s, 2, 1).value;
      ShowCompileBody(s[2..j]);
      ShowScan(s[j + 1..], "");
      ShowScanPlaceholder(s, lit, j);
    } else if EscapeAt(s) || OpensAt(s) {
      ScanUnterminated(s, lit);
      ShowFlush(lit + s);
    } else {
      ScanPlainStep(s, lit);
      ShowScan(s[1..], lit + [s[0]]);
      ConsSplit(lit, s);
    }
  }

  /** One scanning step over a character that starts no markup. */
  lemma ScanPlainStep(s: string, lit: string)
    requires |s| > 0 && !EscapeAt(s) && !OpensAt(s)
    ensures Scan(s, lit) == Scan(s[1..], lit + [s[0]])
    decreases |s|, 1
  {
  }

  lemma ConsSplit(lit: string, s: string)
    requires |s| > 0
    ensures lit + s == lit + [s[0]] + s[1..]
  {
    assert s == [s[0]] + s[1..];
  }

  /** The escape step of `ShowScan`, given the result for the rest of the input. */
  lemma ShowScanEscaped(s: string, lit: string, j: nat)
    requires EscapeAt(s) && MatchClose(s, 3, 1) == Some(j)
    requires Show(Scan(s[j + 1..], "")) == s[j + 1..]
    ensures Show(Scan(s, lit)) == lit + s
  {
    ScanEscapeStep(s, lit, j);
    EscapePrefix(s);
    ShowClosed(s, lit, 3, j, Escaped(s[3..j]), Scan(s[j + 1..], ""));
  }

  /** One scanning step over a closed `\${...}`. */
  lemma ScanEscapeStep(s: string, lit: string, j: nat)
    requires EscapeAt(s) && MatchClose(s, 3, 1) == Some(j)
    ensures Scan(s, lit) == Flush(lit) + [Escaped(s[3..j])] + Scan(s[j + 1..], "")
  {
  }

  lemma EscapePrefix(s: string)
    requires EscapeAt(s)
    ensures s[..3] == "\\${"
  {
  }

  /** The placeholder step of `ShowScan`, given the results for the body and the rest. */
  lemma ShowScanPlaceholder(s: string, lit: string, j: nat)
    requires OpensAt(s) && !EscapeAt(s) && MatchClose(s, 2, 1) == Some(j)
    requires ShowSegment(CompileBody(s[2..j])) == "${" + s[2..j] + "}"
    requires Show(Scan(s[j + 1..], "")) == s[j + 1..]
    ensures Show(Scan(s, lit)) == lit + s
  {
    ScanOpenStep(s, lit, j);
    assert s[..2] == "${";
    ShowClosed(s, lit, 2, j, CompileBody(s[2..j]), Scan(s[j + 1..], ""));
  }

  /** One scanning step over a closed `${...}`. */
  lemma ScanOpenStep(s: string, lit: string, j: nat)
    requires OpensAt(s) && !EscapeAt(s) && MatchClose(s, 2, 1) == Some(j)
    ensures Scan(s, lit) == Flush(lit) + [CompileBody(s[2..j])] + Scan(s[j + 1..], "")
  {
  }

  /** Serializing pending text, one closed segment and the compiled rest. */
  lemma ShowClosed(s: string, lit: string, n: nat, j: nat, g: Segment, rest: Template)
    requires n <= j < |s| && s[j] == '}'
    requires ShowSegment(g) == s[..n] + s[n..j] + "}"
    requires Show(rest) == s[j + 1..]
    ensures Show(Flush(lit) + [g] + rest) == lit + s
  {
    ShowAppend(Flush(lit) + [g], rest);
    ShowAppend(Flush(lit), [g]);
    ShowFlush(lit);
    assert Show([g]) == ShowSegment(g) + Show([]);
    assert s[..n] + s[n..j] + "}" == s[..j + 1];
    assert s == s[..j + 1] + s[j + 1..];
  }

  lemma ShowFlush(lit: string)
    ensures Show(Flush(lit)) == lit
  {
    if lit != "" {
      assert Show([Text(lit)]) == lit + Show([]);
    }
  }

  lemma {:induction false} ShowCompileBody(body: string)
    ensures ShowSegment(CompileBody(body)) == "${" + body + "}"
    decreases |body|, 2
  {
    var split := SplitCurrency(body);
    if split.Some? {
      var v := split.value.0;
      var c := split.value.1;
      ShowParse(v);
      ShowParse(c);
      assert CompileBody(body) == Currency(Parse(v), Parse(c));
      ShowCurrency(v, c, Parse(v), Parse(c));
    } else {
      ShowParse(body);
      assert CompileBody(body) == Placeholder(Parse(body));
    }
  }

  /** A currency segment shows as its value, the marker, its code and `)`, inside `${...}`. */
  lemma ShowCurrency(v: string, c: string, pv: Template, pc: Template)
    requires Show(pv) == v && Show(pc) == c
    ensures ShowSegment(Currency(pv, pc)) == "${" + (v + CurrencyMarker + c + ")") + "}"
  {
    ShowCurrencyUnfold(pv, pc);
    Reassociate("${", v, CurrencyMarker, c, ")", "}");
  }

  lemma ShowCurrencyUnfold(pv: Template, pc: Template)
    ensures ShowSegment(Currency(pv, pc)) == "${" + Show(pv) + CurrencyMarker + Show(pc) + ")}"
  {
  }

  lemma Reassociate(a: string, v: string, m: string, c: string, p: string, b: string)
    ensures a + v + m + c + (p + b) == a + (v + m + c + p) + b
  {
  }

  /** Literal text without `$` or `\` is copied into the pending literal unchanged. */
  lemma {:induction false} ScanPlain(t: string, rest: string, lit: string)
    requires NoMarkup(t)
    ensures Scan(t + rest, lit) == Scan(rest, lit + t)
    decreases |t|
  {
    if |t| == 0 {
      assert t + rest == rest;
      assert lit + t == lit;
    } else {
      var s := t + rest;
      assert s[0] == t[0];
      assert s[1..] == t[1..] + rest;
      ScanPlain(t[1..], rest, lit + [t[0]]);
      assert lit + [t[0]] + t[1..] == lit + t;
    }
  }

  /** A `${` whose body is balanced becomes one placeholder segment. */
  lemma ScanPlaceholder(b: string, rest: string, lit: string)
    requires Balanced(b)
    ensures Scan("${" + b + "}" + rest, lit) == Flush(lit) + [CompileBody(b)] + Scan(rest, "")
  {
    var s := "${" + b + "}" + rest;
    BalancedCloses("${", b, rest);
    var j := |b| + 2;
    assert s[2..j] == b;
    assert s[j + 1..] == rest;
  }

  /** A `\${` whose body is balanced becomes one escaped segment. */
  lemma ScanEscaped(b: string, rest: string, lit: string)
    requires Balanced(b)
    ensures Scan("\\${" + b + "}" + rest, lit) == Flush(lit) + [Escaped(b)] + Scan(rest, "")
  {
    var s := "\\${" + b + "}" + rest;
    BalancedCloses("\\${", b, rest);
    var j := |b| + 3;
    assert s[3..j] == b;
    assert s[j + 1..] == rest;
  }

  /**
   * Once the scanner meets an introducer that is never closed, the pending text, the introducer
   * and everything after it form a single literal segment.
   */
  lemma ScanUnterminated(s: string, lit: string)
    requires (OpensAt(s) && MatchClose(s, 2, 1).None?) || (EscapeAt(s) && MatchClose(s, 3, 1).None?)
    ensures Scan(s, lit) == [Text(lit + s)]
  {
  }

  /** Plain text up to the end of the input becomes one literal segment with the pending text. */
  lemma ScanPlainEnd(t: string, lit: string)
    requires NoMarkup(t)
    ensures Scan(t, lit) == Flush(lit + t)
  {
    ScanPlain(t, "", lit);
    assert t + "" == t;
  }

  /** Plain text followed by a balanced placeholder. */
  lemma ScanPlainPlaceholder(t: string, b: string, rest: string, lit: string)
    requires NoMarkup(t) && Balanced(b)
    ensures Scan(t + "${" + b + "}" + rest, lit) == Flush(lit + t) + [CompileBody(b)] + Scan(rest, "")
  {
    ScanPlain(t, "${" + b + "}" + rest, lit);
    assert t + "${" + b + "}" + rest == t + ("${" + b + "}" + rest);
    ScanPlaceholder(b, rest, lit + t);
  }

  /** Plain text followed by a balanced escaped placeholder. */
  lemma ScanPlainEscaped(t: string, b: string, rest: string, lit: string)
    requires NoMarkup(t) && Balanced(b)
    ensures Scan(t + "\\${" + b + "}" + rest, lit) == Flush(lit + t) + [Escaped(b)] + Scan(rest, "")
  {
    ScanPlain(t, "\\${" + b + "}" + rest, lit);
    assert t + "\\${" + b + "}" + rest == t + ("\\${" + b + "}" + rest);
    ScanEscaped(b, rest, lit + t);
  }

  /** A body without `?` carries no currency directive. */
  lemma NoCurrency(body: string)
    requires '?' !in body
    ensures CompileBody(body) == Placeholder(Parse(body))
  {
  }

  /** A body `value?currency(code)` with no `?` in the value and no `)` in the code. */
  lemma CurrencyBody(v: string, c: string)
    requires v != "" && '?' !in v && ')' !in c
    ensures CompileBody(v + CurrencyMarker + c + ")") == Currency(Parse(v), Parse(c))
  {
    var body := v + CurrencyMarker + c + ")";
    MarkerFirst(v, c);
    var rest := body[|v| + |CurrencyMarker|..];
    assert rest == c + ")";
    CloseFirst(c);
    SplitCurrencyAt(body, |v|, |c|);
    assert body[..|v|] == v;
    assert rest[..|c|] == c;
  }

  /** A marker found first at `p > 0`, and a `)` found first only at the end, split the body there. */
  lemma SplitCurrencyAt(body: string, p: nat, q: nat)
    requires IndexOf(body, CurrencyMarker, 0) == Some(p) && p > 0
    requires IndexOf(body[p + |CurrencyMarker|..], ")", 0) == Some(q)
    requires q == |body| - p - |CurrencyMarker| - 1
    ensures SplitCurrency(body) == Some((body[..p], body[p + |CurrencyMarker|..][..q]))
  {
    SplitOnMarkerAt(body, CurrencyMarker, p, q);
  }

  /** The split of `SplitCurrencyAt`, for any marker. */
  lemma SplitOnMarkerAt(body: string, m: string, p: nat, q: nat)
    requires p + |m| < |body|
    requires IndexOf(body, m, 0) == Some(p) && p > 0
    requires IndexOf(body[p + |m|..], ")", 0) == Some(q)
    requires q == |body| - p - |m| - 1
    ensures SplitOnMarker(body, m) == Some((body[..p], body[p + |m|..][..q]))
  {
    var rest := body[p + |m|..];
    assert |rest| == |body| - (p + |m|);
    assert IndexOf(rest, ")", 0) == Some(q);
  }

  /** The first occurrence found is the one with no occurrence before it. */
  lemma IndexOfFirst(s: string, pat: string, p: nat)
    requires OccursAt(s, pat, p)
    requires forall k: nat :: k < p ==> !OccursAt(s, pat, k)
    ensures IndexOf(s, pat, 0) == Some(p)
  {
  }

  /** In `value?currency(code)`, the first marker follows the value when the value has no `?`. */
  lemma MarkerFirst(v: string, c: string)
    requires '?' !in v
    ensures IndexOf(v + CurrencyMarker + c + ")", CurrencyMarker, 0) == Some(|v|)
  {
    var body := v + CurrencyMarker + c + ")";
    assert OccursAt(body, CurrencyMarker, |v|) by {
      assert body[|v|..|v| + |CurrencyMarker|] == CurrencyMarker;
    }
    forall k: nat | k < |v| ensures !OccursAt(body, CurrencyMarker, k) {
      assert k + |CurrencyMarker| <= |body| ==> body[k] == body[k..k + |CurrencyMarker|][0];
    }
    IndexOfFirst(body, CurrencyMarker, |v|);
  }

  /** In `code)`, the first `)` is the last character when the code has none. */
  lemma CloseFirst(c: string)
    requires ')' !in c
    ensures IndexOf(c + ")", ")", 0) == Some(|c|)
  {
    var rest := c + ")";
    assert OccursAt(rest, ")", |c|) by {
      assert rest[|c|..|c| + 1] == ")";
    }
    forall k: nat | k < |c| ensures !OccursAt(rest, ")", k) {
      assert rest[k..k + 1] == [c[k]];
    }
    IndexOfFirst(rest, ")", |c|);
  }

  /** Text, one balanced placeholder, text. */
  lemma ParseTextPlaceholderText(t1: string, b: string, t2: string)
    requires NoMarkup(t1) && Balanced(b) && NoMarkup(t2)
    ensures Parse(t1 + "${" + b + "}" + t2) == Flush(t1) + [CompileBody(b)] + Flush(t2)
  {
    ScanPlainPlaceholder(t1, b, t2, "");
    ScanPlainEnd(t2, "");
    assert "" + t1 == t1;
    assert "" + t2 == t2;
  }

  /** Text, one balanced escaped placeholder, text. */
  lemma ParseTextEscapedText(t1: string, b: string, t2: string)
    requires NoMarkup(t1) && Balanced(b) && NoMarkup(t2)
    ensures Parse(t1 + "\\${" + b + "}" + t2) == Flush(t1) + [Escaped(b)] + Flush(t2)
  {
    ScanPlainEscaped(t1, b, t2, "");
    ScanPlainEnd(t2, "");
    assert "" + t1 == t1;
    assert "" + t2 == t2;
  }

  /** Text, one balanced placeholder, then an introducer that is never closed. */
  lemma ParseTextPlaceholderUnterminated(t1: string, b: string, u: string)
    requires NoMarkup(t1) && Balanced(b) && OpensAt(u) && MatchClose(u, 2, 1).None?
    ensures Parse(t1 + "${" + b + "}" + u) == Flush(t1) + [CompileBody(b)] + [Text(u)]
  {
    ScanPlainPlaceholder(t1, b, u, "");
    ScanUnterminated(u, "");
    assert "" + t1 == t1;
    assert "" + u == u;
  }
}

=== FILE: template_cache.dfy ===
/**
 * The process-wide cache of compiled templates, made explicit: a map from raw text to the
 * template compiled from it, threaded through `getInstance`.
 */
module TemplateCache {
  import opened Nullable
  import opened Template
  import opened Expander

  datatype Cache = Cache(entries: map<string, Template>)

  /** Every entry holds what compiling its key produces. */
  ghost predicate Coherent(c: Cache) {
    forall k :: k in c.entries ==> c.entries[k] == Parse(k)
  }

  /**
   * `getInstance(raw, useCache)`: null and empty inputs share the empty template and never reach
   * the cache; otherwise a cached lookup compiles on a miss and records the result, while an
   * uncached one compiles afresh and leaves the cache alone.
   */
  function GetInstance(c: Cache, raw: Option<string>, useCache: bool): (r: (Template, Cache))
    requires Coherent(c)
    ensures r.0 == Compile(raw)
    ensures Coherent(r.1)
    ensures !useCache ==> r.1 == c
    ensures r.1.entries.Keys ==
              c.entries.Keys + (if useCache && raw.Some? && raw.value != "" then {raw.value} else {})
  {
    match raw
    case None => ([], c)
    case Some(s) =>
      if s == "" then ([], c)
      else if !useCache then (Parse(s), c)
      else if s in c.entries then (c.entries[s], c)
      else
        var t := Parse(s);
        (t, Cache(c.entries[s := t]))
  }

  /** Cached and uncached compilations of the same input are equal, whatever either cache holds. */
  lemma CachedEqualsUncached(c: Cache, d: Cache, raw: Option<string>)
    requires Coherent(c) && Coherent(d)
    ensures GetInstance(c, raw, true).0 == GetInstance(d, raw, false).0
  {
  }

  /** Fetching again from the cache a first fetch left behind is a hit: same template, same cache. */
  lemma RefetchIsHit(c: Cache, raw: Option<string>)
    requires Coherent(c)
    ensures var (t, c') := GetInstance(c, raw, true);
            GetInstance(c', raw, true) == (t, c')
  {
  }
}

=== FILE: util_collections.dfy ===
/**
 * The collection builders and comparisons of OFBiz's `UtilMisc`.
 *
 * Java lists and arrays are sequences; a `LinkedHashSet` is a sequence without duplicates kept in
 * insertion order; `null` collections and elements are `Option`s.
 */
module UtilCollections {
  import opened Nullable

  /** No element occurs twice: the contents of an insertion-ordered hash set. */
  predicate NoDup<T(==)>(s: seq<T>) {
    forall i, j :: 0 <= i < j < |s| ==> s[i] != s[j]
  }

  /** Both sequences hold the same elements, regardless of order and multiplicity. */
  predicate SameElements<T(==)>(a: seq<T>, b: seq<T>) {
    (forall i :: 0 <= i < |a| ==> a[i] in b) && (forall j :: 0 <= j < |b| ==> b[j] in a)
  }

  /** The index of the first occurrence of `x` in `s`. */
  function FirstIndex<T(==)>(s: seq<T>, x: T): (i: nat)
    requires x in s
    ensures i < |s| && s[i] == x && x !in s[..i]
  {
    if s[0] == x then 0
    else
      var i := 1 + FirstIndex(s[1..], x);
      assert s[..i] == [s[0]] + s[1..][..i - 1];
      i
  }

  /** `r` lists the distinct elements of `s` once each, in the order of their first occurrence. */
  ghost predicate FirstOccurrenceOrder<T>(s: seq<T>, r: seq<T>) {
    NoDup(r) && SameElements(s, r) &&
    forall i, j :: 0 <= i < j < |r| ==> FirstIndex(s, r[i]) < FirstIndex(s, r[j])
  }

  /** Inserting every element of `data` into a fresh insertion-ordered set: the first occurrence wins. */
  method Dedup<T(==)>(data: seq<T>) returns (r: seq<T>)
    ensures FirstOccurrenceOrder(data, r)
  {
    r := [];
    var i := 0;
    while i < |data|
      invariant 0 <= i <= |data|
      invariant NoDup(r)
      invariant forall x :: x in r <==> x in data[..i]
      invariant forall a :: 0 <= a < |r| ==> r[a] in data
      invariant forall a :: 0 <= a < |r| ==> FirstIndex(data, r[a]) < i
      invariant forall a, b :: 0 <= a < b < |r| ==> FirstIndex(data, r[a]) < FirstIndex(data, r[b])
    {
      assert data[..i + 1] == data[..i] + [data[i]];
      if data[i] !in r {
        assert FirstIndex(data, data[i]) == i;
        r := r + [data[i]];
      }
      i := i + 1;
    }
    assert data[..i] == data;
  }

  // ---- uniqueness of the first-occurrence order -------------------------------------------

  predicate Increasing(a: seq<int>) {
    forall i, j :: 0 <= i < j < |a| ==> a[i] < a[j]
  }

  lemma {:induction false} IncreasingUnique(a: seq<int>, b: seq<int>)
    requires Increasing(a) && Increasing(b)
    requires forall x :: x in a <==> x in b
    ensures a == b
    decreases |a|
  {
    if |a| == 0 || |b| == 0 {
      EmptyTogether(a, b);
    } else {
      assert a[0] in a && b[0] in b;
      assert a[0] in b;
      assert b[0] in a;
      assert a[0] == b[0];
      forall x ensures x in a[1..] <==> x in b[1..] {
        if x in a[1..] {
          assert x in b && x != b[0];
        }
        if x in b[1..] {
          assert x in a && x != a[0];
        }
      }
      IncreasingUnique(a[1..], b[1..]);
      assert a == [a[0]] + a[1..];
      assert b == [b[0]] + b[1..];
    }
  }

  lemma EmptyTogether(a: seq<int>, b: seq<int>)
    requires forall x :: x in a <==> x in b
    ensures |a| == 0 <==> |b| == 0
  {
    if |a| > 0 {
      var x := a[0];
      assert x in a;
      assert x in b;
    }
    if |b| > 0 {
      var y := b[0];
      assert y in b ==> y in a;
    }
  }

  /** The first-occurrence indexes of the elements of `r`, in `r`'s order. */
  function Positions<T(==)>(s: seq<T>, r: seq<T>): (p: seq<int>)
    requires forall x :: x in r ==> x in s
    ensures |p| == |r|
    ensures forall k :: 0 <= k < |r| ==> p[k] == FirstIndex(s, r[k])
  {
    if |r| == 0 then [] else [FirstIndex(s, r[0])] + Positions(s, r[1..])
  }

  /** Every first-occurrence index of `r1` is one of `r2`, when both list the same elements. */
  lemma PositionsIncluded<T>(s: seq<T>, r1: seq<T>, r2: seq<T>)
    requires FirstOccurrenceOrder(s, r1) && FirstOccurrenceOrder(s, r2)
    ensures forall x :: x in Positions(s, r1) ==> x in Positions(s, r2)
  {
    var p1 := Positions(s, r1);
    var p2 := Positions(s, r2);
    forall x | x in p1 ensures x in p2 {
      var k :| 0 <= k < |p1| && p1[k] == x;
      assert r1[k] in r2;
      var m :| 0 <= m < |r2| && r2[m] == r1[k];
      assert p2[m] == x;
    }
  }

  /** The first-occurrence order determines a single sequence. */
  lemma FirstOccurrenceOrderUnique<T>(s: seq<T>, r1: seq<T>, r2: seq<T>)
    requires FirstOccurrenceOrder(s, r1) && FirstOccurrenceOrder(s, r2)
    ensures r1 == r2
  {
    var p1 := Positions(s, r1);
    var p2 := Positions(s, r2);
    PositionsIncluded(s, r1, r2);
    PositionsIncluded(s, r2, r1);
    IncreasingUnique(p1, p2);
    forall k | 0 <= k < |r1| ensures r1[k] == r2[k] {
      assert s[p1[k]] == r1[k] && s[p2[k]] == r2[k];
    }
  }

  /** A sequence without duplicates is already in its own first-occurrence order. */
  lemma NoDupOwnOrder<T>(s: seq<T>)
    requires NoDup(s)
    ensures FirstOccurrenceOrder(s, s)
  {
    forall k | 0 <= k < |s| ensures FirstIndex(s, s[k]) == k {
      var f := FirstIndex(s, s[k]);
      assert s[f] == s[k];
    }
  }

  // ---- toSet, toSetArray, toSet(Collection), collectionToSet ------------------------------

  /** `toSet(T...)` and `toSetArray(T[])`: null for a null array, else the array's distinct elements. */
  method ToSet<T(==)>(data: Option<seq<T>>) returns (r: Option<seq<T>>)
    ensures r.None? <==> data.None?
    ensures r.Some? ==> FirstOccurrenceOrder(data.value, r.value)
  {
    if data.None? {
      return None;
    }
    var s := Dedup(data.value);
    return Some(s);
  }

  /** A Java collection: a `Set` (its elements distinct, in iteration order) or any other collection. */
  datatype Collection<T> = AsSet(items: seq<T>) | AsList(items: seq<T>)

  predicate ValidCollection<T(==)>(c: Collection<T>) {
    c.AsSet? ==> NoDup(c.items)
  }

  /** `toSet(Collection)`: a `Set` comes back as the same object, anything else is copied into a new set. */
  method ToSetOfCollection<T(==)>(c: Option<Collection<T>>) returns (r: Option<seq<T>>)
    requires c.Some? ==> ValidCollection(c.value)
    ensures r.None? <==> c.None?
    ensures c.Some? && c.value.AsSet? ==> r == Some(c.value.items)
    ensures r.Some? ==> FirstOccurrenceOrder(c.value.items, r.value)
  {
    if c.None? {
      return None;
    }
    if c.value.AsSet? {
      NoDupOwnOrder(c.value.items);
      return Some(c.value.items);
    }
    var s := Dedup(c.value.items);
    return Some(s);
  }

  /** `Collection.remove(x)`: drops the first occurrence of `x`, if any. */
  function RemoveFirst<T(==)>(xs: seq<T>, x: T): (r: seq<T>)
    ensures x !in xs ==> r == xs
    ensures x in xs ==> r == xs[..FirstIndex(xs, x)] + xs[FirstIndex(xs, x) + 1..]
    ensures multiset(r) == multiset(xs) - multiset{x}
  {
    if |xs| == 0 then []
    else if xs[0] == x then
      RemovedAtHead(xs, x);
      xs[1..]
    else
      var rest := RemoveFirst(xs[1..], x);
      RemovedAfterHead(xs, x, rest);
      [xs[0]] + rest
  }

  /** An occurrence at the head is the first one, and dropping it takes `x` out once. */
  lemma RemovedAtHead<T>(xs: seq<T>, x: T)
    requires |xs| > 0 && xs[0] == x
    ensures x in xs && FirstIndex(xs, x) == 0 && xs[..0] + xs[1..] == xs[1..]
    ensures multiset(xs[1..]) == multiset(xs) - multiset{x}
  {
    assert xs == [xs[0]] + xs[1..];
  }

  /** Behind a head other than `x`, removing the first `x` from the tail removes the first `x` overall. */
  lemma RemovedAfterHead<T>(xs: seq<T>, x: T, rest: seq<T>)
    requires |xs| > 0 && xs[0] != x
    requires x !in xs[1..] ==> rest == xs[1..]
    requires x in xs[1..] ==> rest == xs[1..][..FirstIndex(xs[1..], x)] + xs[1..][FirstIndex(xs[1..], x) + 1..]
    requires multiset(rest) == multiset(xs[1..]) - multiset{x}
    ensures x !in xs ==> [xs[0]] + rest == xs
    ensures x in xs ==> [xs[0]] + rest == xs[..FirstIndex(xs, x)] + xs[FirstIndex(xs, x) + 1..]
    ensures multiset([xs[0]] + rest) == multiset(xs) - multiset{x}
  {
    if x in xs {
      PositionAfterHead(xs, x, rest);
    } else {
      assert xs == [xs[0]] + xs[1..];
    }
    MultisetAfterHead(xs, x, rest);
  }

  lemma PositionAfterHead<T>(xs: seq<T>, x: T, rest: seq<T>)
    requires |xs| > 0 && xs[0] != x && x in xs
    requires rest == xs[1..][..FirstIndex(xs[1..], x)] + xs[1..][FirstIndex(xs[1..], x) + 1..]
    ensures [xs[0]] + rest == xs[..FirstIndex(xs, x)] + xs[FirstIndex(xs, x) + 1..]
  {
    assert xs == [xs[0]] + xs[1..];
    var j := FirstIndex(xs[1..], x);
    assert FirstIndex(xs, x) == j + 1;
    DropAfterHead(xs, j);
  }

  lemma DropAfterHead<T>(xs: seq<T>, j: int)
    requires 0 <= j && j + 1 < |xs|
    ensures [xs[0]] + (xs[1..][..j] + xs[1..][j + 1..]) == xs[..j + 1] + xs[j + 2..]
  {
    assert xs[..j + 1] == [xs[0]] + xs[1..][..j];
    assert xs[j + 2..] == xs[1..][j + 1..];
  }

  lemma MultisetAfterHead<T>(xs: seq<T>, x: T, rest: seq<T>)
    requires |xs| > 0 && xs[0] != x
    requires multiset(rest) == multiset(xs[1..]) - multiset{x}
    ensures multiset([xs[0]] + rest) == multiset(xs) - multiset{x}
  {
    assert xs == [xs[0]] + xs[1..];
  }

  /**
   * `collectionToSet`: a `Set` comes back as the same object; any other collection first loses one
   * null from the caller's own collection, then its distinct elements are copied into a new set.
   * Returns the set and the caller's collection as the call leaves it.
   */
  method CollectionToSet<T(==)>(c: Option<Collection<Option<T>>>) returns (r: Option<seq<Option<T>>>, after: Option<Collection<Option<T>>>)
    requires c.Some? ==> ValidCollection(c.value)
    ensures r.None? <==> c.None?
    ensures c.Some? && c.value.AsSet? ==> r == Some(c.value.items) && after == c
    ensures c.Some? && c.value.AsList? ==>
      after == Some(AsList(RemoveFirst(c.value.items, None))) &&
      FirstOccurrenceOrder(after.value.items, r.value)
    ensures c.Some? && c.value.AsList? ==> (None in r.value <==> multiset(c.value.items)[None] >= 2)
  {
    if c.None? {
      return None, None;
    }
    if c.value.AsSet? {
      return Some(c.value.items), c;
    }
    var rest := RemoveFirst(c.value.items, None);
    var s := Dedup(rest);
    assert None in rest <==> multiset(rest)[None] >= 1;
    return Some(s), Some(AsList(rest));
  }

  // ---- toList, toListArray -----------------------------------------------------------------

  /** `toList(T...)` and `toListArray(T[])`: a new list with the array's elements in order. */
  method ToList<T>(data: Option<seq<T>>) returns (r: Option<seq<T>>)
    ensures r == data
  {
    if data.None? {
      return None;
    }
    var list: seq<T> := [];
    var i := 0;
    while i < |data.value|
      invariant 0 <= i <= |data.value|
      invariant list == data.value[..i]
    {
      list := list + [data.value[i]];
      i := i + 1;
    }
    assert data.value[..i] == data.value;
    return Some(list);
  }

  // ---- compare -----------------------------------------------------------------------------

  /**
   * `compare(Comparable, T)`: a null first argument sorts after everything but another null;
   * otherwise the first argument's own `compareTo` decides.
   */
  function CompareNullable<T>(a: Option<T>, b: Option<T>, compareTo: (T, Option<T>) -> int): (r: int)
    ensures a.None? ==> 0 <= r <= 1 && (r == 0 <==> b.None?)
    ensures a.Some? ==> r == compareTo(a.value, b)
  {
    if a.None? then (if b.None? then 0 else 1) else compareTo(a.value, b)
  }

  /** `containsAll`: every element of `b` is in `a`. */
  function ContainsAll<T(==)>(a: seq<T>, b: seq<T>): (r: bool)
    ensures r <==> forall x :: x in b ==> x in a
  {
    if |b| == 0 then true
    else
      assert b == [b[0]] + b[1..];
      b[0] in a && ContainsAll(a, b[1..])
  }

  /**
   * `compare(List, List)`: 0 for the same list (two nulls included) or for lists of one size each
   * containing all of the other's elements, 1 otherwise; a single null list throws.
   */
  function CompareLists<T(==)>(a: Option<seq<T>>, b: Option<seq<T>>): (r: Result<int>)
    ensures r.Thrown? <==> a.None? != b.None?
    ensures r.Thrown? ==> r.error == NullPointer
    ensures r.Ok? ==> r.value == 0 || r.value == 1
    ensures r == Ok(0) <==> (a.None? && b.None?) || (a.Some? && b.Some? && |a.value| == |b.value| && SameElements(a.value, b.value))
  {
    if a.None? && b.None? then Ok(0)
    else if a.None? || b.None? then Thrown(NullPointer)
    else if |a.value| == |b.value| && ContainsAll(a.value, b.value) && ContainsAll(b.value, a.value) then Ok(0)
    else Ok(1)
  }

  /** The comparison does not depend on the order of its arguments, so it is no ordering. */
  lemma CompareListsSymmetric<T>(a: Option<seq<T>>, b: Option<seq<T>>)
    ensures CompareLists(a, b) == CompareLists(b, a)
  {
  }

  /** Two lists of one size with different multiplicities still compare equal. */
  lemma CompareListsIgnoresMultiplicity<T>(x: T, y: T)
    requires x != y
    ensures CompareLists(Some([x, x, y]), Some([x, y, y])) == Ok(0)
    ensures multiset([x, x, y]) != multiset([x, y, y])
  {
    assert multiset([x, x, y])[x] == 2;
    assert multiset([x, y, y])[x] == 1;
  }

  // ---- collectionToString ------------------------------------------------------------------

  /** Every element's text followed by the delimiter. */
  function Terminated<T>(xs: seq<T>, d: string, str: T -> string): string
  {
    if |xs| == 0 then "" else Terminated(xs[..|xs| - 1], d, str) + str(xs[|xs| - 1]) + d
  }

  /** The conventional join: the delimiter only between elements. */
  function Join<T>(xs: seq<T>, d: string, str: T -> string): string
  {
    if |xs| == 0 then ""
    else if |xs| == 1 then str(xs[0])
    else str(xs[0]) + d + Join(xs[1..], d, str)
  }

  /**
   * `collectionToString`: null for a null or empty collection; otherwise each element's string
   * form followed by the delimiter (a null delimiter counts as empty). `str` is the helper's
   * null-safe `toString`.
   */
  method CollectionToString<T>(values: Option<seq<T>>, delimiter: Option<string>, str: T -> string) returns (r: Option<string>)
    ensures r.None? <==> values.None? || |values.value| == 0
    ensures r.Some? ==> r.value == Terminated(values.value, delimiter.GetOr(""), str)
  {
    if values.None? || |values.value| == 0 {
      return None;
    }
    var d := delimiter.GetOr("");
    var xs := values.value;
    var out := "";
    var i := 0;
    while i < |xs|
      invariant 0 <= i <= |xs|
      invariant out == Terminated(xs[..i], d, str)
    {
      assert xs[..i + 1][..i] == xs[..i];
      out := out + str(xs[i]) + d;
      i := i + 1;
    }
    assert xs[..i] == xs;
    return Some(out);
  }

  /** The result is the conventional join with one more delimiter at the end. */
  lemma {:induction false} TerminatedIsJoinPlusDelimiter<T>(xs: seq<T>, d: string, str: T -> string)
    requires |xs| > 0
    ensures Terminated(xs, d, str) == Join(xs, d, str) + d
    decreases |xs|
  {
    if |xs| == 1 {
      assert xs[..0] == [];
    } else {
      var n := |xs|;
      TerminatedIsJoinPlusDelimiter(xs[..n - 1], d, str);
      JoinSnoc(xs[..n - 1], xs[n - 1], d, str);
      assert xs[..n - 1] + [xs[n - 1]] == xs;
    }
  }

  lemma {:induction false} JoinSnoc<T>(xs: seq<T>, x: T, d: string, str: T -> string)
    requires |xs| > 0
    ensures Join(xs + [x], d, str) == Join(xs, d, str) + d + str(x)
    decreases |xs|
  {
    if |xs| == 1 {
      assert (xs + [x])[1..] == [x];
    } else {
      assert (xs + [x])[1..] == xs[1..] + [x];
      JoinSnoc(xs[1..], x, d, str);
    }
  }

  // ---- makeArrayListSerializable -----------------------------------------------------------

  /** The elements that survive the filter: non-null and serializable, in their order. */
  function Serializables<V>(xs: seq<Option<V>>, ser: V -> bool): seq<Option<V>>
  {
    if |xs| == 0 then []
    else (if xs[0].Some? && ser(xs[0].value) then [xs[0]] else []) + Serializables(xs[1..], ser)
  }

  /**
   * `makeArrayListSerializable`: removes, in place, every element that is not `Serializable`;
   * `null` is not an instance of anything, so nulls go too.
   */
  method MakeArrayListSerializable<V>(list: seq<Option<V>>, ser: V -> bool) returns (r: seq<Option<V>>)
    ensures r == Serializables(list, ser)
  {
    r := [];
    var i := |list|;
    while i > 0
      invariant 0 <= i <= |list|
      invariant r == Serializables(list[i..], ser)
    {
      i := i - 1;
      assert list[i..][1..] == list[i + 1..];
      if list[i].Some? && ser(list[i].value) {
        r := [list[i]] + r;
      }
    }
  }

  /** What survives is exactly the non-null serializable elements. */
  lemma {:induction false} SerializablesMembers<V>(xs: seq<Option<V>>, ser: V -> bool, x: Option<V>)
    ensures x in Serializables(xs, ser) <==> x in xs && x.Some? && ser(x.value)
    decreases |xs|
  {
    if |xs| > 0 {
      SerializablesMembers(xs[1..], ser, x);
      assert xs == [xs[0]] + xs[1..];
    }
  }

  /** Filtering a filtered list changes nothing. */
  lemma {:induction false} SerializablesIdempotent<V>(xs: seq<Option<V>>, ser: V -> bool)
    ensures Serializables(Serializables(xs, ser), ser) == Serializables(xs, ser)
    decreases |xs|
  {
    if |xs| > 0 {
      SerializablesIdempotent(xs[1..], ser);
      var head := if xs[0].Some? && ser(xs[0].value) then [xs[0]] else [];
      SerializablesAppend(head, Serializables(xs[1..], ser), ser);
      assert Serializables(head, ser) == head by {
        if |head| == 1 {
          assert head[1..] == [];
        }
      }
    }
  }

  lemma {:induction false} SerializablesAppend<V>(a: seq<Option<V>>, b: seq<Option<V>>, ser: V -> bool)
    ensures Serializables(a + b, ser) == Serializables(a, ser) + Serializables(b, ser)
    decreases |a|
  {
    if |a| > 0 {
      assert (a + b)[1..] == a[1..] + b;
      SerializablesAppend(a[1..], b, ser);
    } else {
      assert a + b == b;
    }
  }
}

=== FILE: util_locale.dfy ===
/**
 * The locale-string helpers of OFBiz's `UtilMisc`: `parseLocale` splits a string such as `en_US`
 * by length alone, and `ensureLocale` always yields some locale.
 *
 * A locale is the triple of its language, country and variant; the case normalisation and the
 * well-formedness checks Java's locale classes apply are not modelled.
 */
module UtilLocale {
  import opened Nullable

  datatype Locale = Locale(language: string, country: string, variant: string)

  /**
   * `parseLocale`: null for a null or empty string; length 2 is a language; length 5 is a
   * language at 0-1 and a country at 3-4; length 7 or more adds a variant from index 6 on; the
   * characters at 2 and 5 are skipped unread. Every other length gives null.
   */
  function ParseLocale(s: Option<string>): (r: Option<Locale>)
    ensures r.Some? <==> s.Some? && (|s.value| == 2 || |s.value| == 5 || |s.value| > 6)
    ensures r.Some? ==> r.value.language == s.value[..2]
    ensures r.Some? && |s.value| == 2 ==> r.value.country == "" && r.value.variant == ""
    ensures r.Some? && |s.value| >= 5 ==> r.value.country == s.value[3..5]
    ensures r.Some? && |s.value| == 5 ==> r.value.variant == ""
    ensures r.Some? && |s.value| > 6 ==> r.value.variant == s.value[6..]
  {
    if s.None? || |s.value| == 0 then None
    else
      var t := s.value;
      if |t| == 2 then Some(Locale(t, "", ""))
      else if |t| == 5 then Some(Locale(t[..2], t[3..5], ""))
      else if |t| > 6 then Some(Locale(t[..2], t[3..5], t[6..]))
      else None
  }

  /** Java's `Locale.toString`: the parts joined by `_`, trailing empty parts dropped. */
  function LocaleString(l: Locale): string
  {
    l.language
      + (if l.country != "" || l.variant != "" then "_" + l.country else "")
      + (if l.variant != "" then "_" + l.variant else "")
  }

  /** A locale `parseLocale` can produce: a two-letter language, and a two-letter country before any variant. */
  predicate Parsable(l: Locale) {
    |l.language| == 2 && (l.country == "" ==> l.variant == "") && (l.country != "" ==> |l.country| == 2)
  }

  /** Parsing a locale's string form gives the locale back. */
  lemma ParseLocaleString(l: Locale)
    requires Parsable(l)
    ensures ParseLocale(Some(LocaleString(l))) == Some(l)
  {
    var s := LocaleString(l);
    if l.country != "" && l.variant != "" {
      assert s == l.language + "_" + l.country + "_" + l.variant;
      assert s[..2] == l.language && s[3..5] == l.country && s[6..] == l.variant;
    } else if l.country != "" {
      assert s == l.language + "_" + l.country;
      assert s[..2] == l.language && s[3..5] == l.country;
    }
  }

  /** A string with `_` at the skipped positions is the string form of the locale it parses to. */
  lemma LocaleStringOfParse(s: string)
    requires |s| == 2 || |s| == 5 || |s| > 6
    requires |s| >= 5 ==> s[2] == '_'
    requires |s| > 6 ==> s[5] == '_'
    ensures ParseLocale(Some(s)).Some? && LocaleString(ParseLocale(Some(s)).value) == s
  {
    if |s| == 5 {
      assert s == s[..2] + "_" + s[3..5];
    } else if |s| > 6 {
      assert s == s[..2] + "_" + s[3..5] + "_" + s[6..];
    }
  }

  /** What `ensureLocale` may be given: a string, a locale, or anything else (null included). */
  datatype LocaleArg = FromString(s: string) | FromLocale(l: Locale) | OtherArg

  /**
   * `ensureLocale`: a string that parses gives its locale, a locale is returned as it is, and
   * everything else falls back to the JVM's default locale, passed in as `default`.
   */
  function EnsureLocale(arg: LocaleArg, default: Locale): (r: Locale)
    ensures arg.FromLocale? ==> r == arg.l
    ensures arg.FromString? && ParseLocale(Some(arg.s)).Some? ==> r == ParseLocale(Some(arg.s)).value
    ensures arg.FromString? && ParseLocale(Some(arg.s)).None? ==> r == default
    ensures arg.OtherArg? ==> r == default
  {
    match arg
    case FromString(s) => ParseLocale(Some(s)).GetOr(default)
    case FromLocale(l) => l
    case OtherArg => default
  }

  /** The string form of a parsable locale ensures that very locale, whatever the default. */
  lemma EnsureLocaleString(l: Locale, default: Locale)
    requires Parsable(l)
    ensures EnsureLocale(FromString(LocaleString(l)), default) == l
  {
    ParseLocaleString(l);
  }

  /** Lengths 1, 3, 4 and 6 fall back to the default. */
  lemma EnsureLocaleBadLength(s: string, default: Locale)
    requires |s| == 1 || |s| == 3 || |s| == 4 || |s| == 6
    ensures EnsureLocale(FromString(s), default) == default
  {
  }
}

=== FILE: util_maps.dfy ===
/**
 * The map helpers of OFBiz's `UtilMisc`: the key/value literal builder, the get-or-create helpers
 * for maps of collections, the serializability filter and the decimal accumulator.
 *
 * Java maps are updated in place; here every helper returns the map as the call leaves it. A key
 * mapped to `null` is a key whose value is `None`.
 */
module UtilMaps {
  import opened Nullable
  import opened UtilCollections

  // ---- toMap -------------------------------------------------------------------------------

  /** Key position `j` below `n` whose key is not put again at a later key position below `n`. */
  ghost predicate LastKeyBefore<T>(kvs: seq<T>, j: int, n: int) {
    0 <= j && j % 2 == 0 && j + 1 < n <= |kvs| &&
    forall j' :: j < j' < n && j' % 2 == 0 ==> kvs[j'] != kvs[j]
  }

  /** `kvs[j]` is a key some put leaves in the map. */
  ghost predicate KeyPosition<T>(kvs: seq<T>, j: int, n: int) {
    0 <= j < n && j % 2 == 0
  }

  /** One put, giving `m2`, extends the key set by the key at position `i`. */
  lemma PutKeys<T>(kvs: seq<T>, m: map<T, T>, m2: map<T, T>, i: int)
    requires 0 <= i && i + 2 <= |kvs| && i % 2 == 0 && m2 == m[kvs[i] := kvs[i + 1]]
    requires forall k :: k in m <==> exists j :: KeyPosition(kvs, j, i) && kvs[j] == k
    ensures forall k :: k in m2 <==> exists j :: KeyPosition(kvs, j, i + 2) && kvs[j] == k
  {
    forall k ensures k in m2 <==> exists j :: KeyPosition(kvs, j, i + 2) && kvs[j] == k {
      if k == kvs[i] {
        assert KeyPosition(kvs, i, i + 2);
      } else if exists j :: KeyPosition(kvs, j, i + 2) && kvs[j] == k {
        var j :| KeyPosition(kvs, j, i + 2) && kvs[j] == k;
        assert KeyPosition(kvs, j, i);
      }
    }
  }

  /** One put leaves every earlier last occurrence's value and stores the new one. */
  lemma PutValues<T>(kvs: seq<T>, m: map<T, T>, i: int)
    requires 0 <= i && i + 2 <= |kvs| && i % 2 == 0
    requires forall j :: LastKeyBefore(kvs, j, i) ==> kvs[j] in m && m[kvs[j]] == kvs[j + 1]
    ensures forall j :: LastKeyBefore(kvs, j, i + 2) ==>
      kvs[j] in m[kvs[i] := kvs[i + 1]] && m[kvs[i] := kvs[i + 1]][kvs[j]] == kvs[j + 1]
  {
    forall j | LastKeyBefore(kvs, j, i + 2)
      ensures kvs[j] in m[kvs[i] := kvs[i + 1]] && m[kvs[i] := kvs[i + 1]][kvs[j]] == kvs[j + 1]
    {
      if j != i {
        assert kvs[j] != kvs[i];
        assert LastKeyBefore(kvs, j, i);
      }
    }
  }

  /**
   * `toMap(Object...)`: a lone `Map` argument comes back as it is; an odd number of arguments
   * throws; otherwise the pairs are put left to right into a new map, so a repeated key keeps the
   * value after its last occurrence. `asMap` tells which objects are maps.
   */
  method ToMap<T(==)>(kvs: seq<T>, asMap: T -> Option<map<T, T>>) returns (r: Result<map<T, T>>)
    ensures |kvs| == 1 && asMap(kvs[0]).Some? ==> r == Ok(asMap(kvs[0]).value)
    ensures r.Thrown? <==> |kvs| % 2 == 1 && !(|kvs| == 1 && asMap(kvs[0]).Some?)
    ensures r.Thrown? ==> r.error == IllegalArgument
    ensures r.Ok? && |kvs| % 2 == 0 ==>
      forall k :: k in r.value <==> exists j :: KeyPosition(kvs, j, |kvs|) && kvs[j] == k
    ensures r.Ok? && |kvs| % 2 == 0 ==>
      forall j :: LastKeyBefore(kvs, j, |kvs|) ==> r.value[kvs[j]] == kvs[j + 1]
  {
    if |kvs| == 1 && asMap(kvs[0]).Some? {
      return Ok(asMap(kvs[0]).value);
    }
    if |kvs| % 2 == 1 {
      return Thrown(IllegalArgument);
    }
    var m: map<T, T> := map[];
    var i := 0;
    while i < |kvs|
      invariant 0 <= i <= |kvs| && i % 2 == 0
      invariant forall k :: k in m <==> exists j :: KeyPosition(kvs, j, i) && kvs[j] == k
      invariant forall j :: LastKeyBefore(kvs, j, i) ==> kvs[j] in m && m[kvs[j]] == kvs[j + 1]
    {
      var m2 := m[kvs[i] := kvs[i + 1]];
      PutKeys(kvs, m, m2, i);
      PutValues(kvs, m, i);
      m := m2;
      i := i + 2;
    }
    return Ok(m);
  }

  // ---- getMapFromMap, getListFromMap -------------------------------------------------------

  /** The collection a key holds: `None` when the key is absent or mapped to null. */
  function Held<K, W>(outer: map<K, Option<W>>, key: K): Option<W>
  {
    if key in outer then outer[key] else None
  }

  /**
   * The get-or-create step shared by `getMapFromMap` and `getListFromMap`: the collection the
   * key holds, or a new empty one that is put under the key first.
   */
  function GetOrCreate<K, W>(outer: map<K, Option<W>>, key: K, empty: W): (r: (W, map<K, Option<W>>))
    ensures Held(r.1, key) == Some(r.0)
    ensures Held(outer, key).Some? ==> r.0 == Held(outer, key).value && r.1 == outer
    ensures Held(outer, key).None? ==> r.0 == empty && r.1.Keys == outer.Keys + {key}
    ensures forall k :: k in outer && k != key ==> k in r.1 && r.1[k] == outer[k]
  {
    match Held(outer, key)
    case Some(w) => (w, outer)
    case None => (empty, outer[key := Some(empty)])
  }

  /** Asking twice gives the same collection and changes nothing the second time. */
  lemma GetOrCreateStable<K, W>(outer: map<K, Option<W>>, key: K, empty: W)
    ensures GetOrCreate(GetOrCreate(outer, key, empty).1, key, empty) == GetOrCreate(outer, key, empty)
  {
  }

  /** `getMapFromMap`: the inner map under the key, created empty when missing. */
  function GetMapFromMap<K, IK, V>(outer: map<K, Option<map<IK, V>>>, key: K): (r: (map<IK, V>, map<K, Option<map<IK, V>>>))
    ensures Held(r.1, key) == Some(r.0)
    ensures Held(outer, key).Some? ==> r.0 == Held(outer, key).value && r.1 == outer
    ensures Held(outer, key).None? ==> r.0 == map[] && r.1.Keys == outer.Keys + {key}
    ensures forall k :: k in outer && k != key ==> k in r.1 && r.1[k] == outer[k]
  {
    GetOrCreate(outer, key, map[])
  }

  /** `getListFromMap`: the inner list under the key, created empty when missing. */
  function GetListFromMap<K, V>(outer: map<K, Option<seq<V>>>, key: K): (r: (seq<V>, map<K, Option<seq<V>>>))
    ensures Held(r.1, key) == Some(r.0)
    ensures Held(outer, key).Some? ==> r.0 == Held(outer, key).value && r.1 == outer
    ensures Held(outer, key).None? ==> r.0 == [] && r.1.Keys == outer.Keys + {key}
    ensures forall k :: k in outer && k != key ==> k in r.1 && r.1[k] == outer[k]
  {
    GetOrCreate(outer, key, [])
  }

  // ---- addToListInMap, addToSetInMap -------------------------------------------------------

  /** `addToListInMap`: appends the element to the key's list, creating the list when missing. */
  function AddToListInMap<K, V>(element: V, m: map<K, Option<seq<V>>>, key: K): (r: map<K, Option<seq<V>>>)
    ensures Held(r, key) == Some(Held(m, key).GetOr([]) + [element])
    ensures r.Keys == m.Keys + {key}
    ensures forall k :: k in m && k != key ==> r[k] == m[k]
  {
    var (list, m1) := GetListFromMap(m, key);
    m1[key := Some(list + [element])]
  }

  /** Adds the elements one after another. */
  function AddAllToListInMap<K, V>(elements: seq<V>, m: map<K, Option<seq<V>>>, key: K): map<K, Option<seq<V>>>
    decreases |elements|
  {
    if |elements| == 0 then m else AddAllToListInMap(elements[1..], AddToListInMap(elements[0], m, key), key)
  }

  /** Repeated adds keep the order of the calls. */
  lemma {:induction false} AddAllToListInMapOrder<K, V>(elements: seq<V>, m: map<K, Option<seq<V>>>, key: K)
    requires |elements| > 0
    ensures Held(AddAllToListInMap(elements, m, key), key) == Some(Held(m, key).GetOr([]) + elements)
    decreases |elements|
  {
    var m1 := AddToListInMap(elements[0], m, key);
    if |elements| == 1 {
      assert elements == [elements[0]];
    } else {
      AddAllToListInMapOrder(elements[1..], m1, key);
      assert Held(m, key).GetOr([]) + [elements[0]] + elements[1..] == Held(m, key).GetOr([]) + elements;
    }
  }

  /** `LinkedHashSet.add`: a new element goes last, an existing one stays where it is. */
  function Insert<V(==)>(s: seq<V>, x: V): (r: seq<V>)
    ensures x in s ==> r == s
    ensures x !in s ==> r == s + [x]
    ensures NoDup(s) ==> NoDup(r)
    ensures x in r && (forall y :: y in s ==> y in r) && (forall y :: y in r ==> y in s || y == x)
  {
    if x in s then s else s + [x]
  }

  /** `addToSetInMap`: adds the element to the key's set, creating the set when missing. */
  function AddToSetInMap<K, V(==)>(element: V, m: map<K, Option<seq<V>>>, key: K): (r: map<K, Option<seq<V>>>)
    ensures Held(r, key).Some? && element in Held(r, key).value
    ensures Held(r, key) == Some(Insert(Held(m, key).GetOr([]), element))
    ensures NoDup(Held(m, key).GetOr([])) ==> NoDup(Held(r, key).value)
    ensures r.Keys == m.Keys + {key}
    ensures forall k :: k in m && k != key ==> r[k] == m[k]
  {
    var (s, m1) := GetOrCreate(m, key, []);
    m1[key := Some(Insert(s, element))]
  }

  /** Adding an element that is already in the set leaves the map as it is. */
  lemma AddToSetInMapIdempotent<K, V>(element: V, m: map<K, Option<seq<V>>>, key: K)
    ensures AddToSetInMap(element, AddToSetInMap(element, m, key), key) == AddToSetInMap(element, m, key)
  {
    var r := AddToSetInMap(element, m, key);
    assert Held(r, key).Some? && element in Held(r, key).value;
  }

  // ---- makeMapSerializable -----------------------------------------------------------------

  /**
   * `makeMapSerializable`: first collects the keys whose value is non-null and not
   * `Serializable`, then removes them; null values stay. `ser` tells which values are.
   */
  method MakeMapSerializable<V>(m: map<string, Option<V>>, ser: V -> bool) returns (r: map<string, Option<V>>)
    ensures forall k :: k in r <==> k in m && (m[k].None? || ser(m[k].value))
    ensures forall k :: k in r ==> r[k] == m[k]
  {
    var toRemove: set<string> := {};
    var pending := m.Keys;
    while pending != {}
      invariant pending <= m.Keys
      invariant forall k :: k in toRemove <==> k in m && k !in pending && m[k].Some? && !ser(m[k].value)
      decreases pending
    {
      var k :| k in pending;
      if m[k].Some? && !ser(m[k].value) {
        toRemove := toRemove + {k};
      }
      pending := pending - {k};
    }
    r := m - toRemove;
  }

  // ---- addToBigDecimalInMap ----------------------------------------------------------------

  /**
   * A map value the accumulator meets: a `BigDecimal`, a `Long`, or any other type except
   * `Double`, which is not represented (its conversion goes through floating point).
   */
  datatype Number = Decimal(d: real) | LongValue(n: int) | Unsupported

  /** The number a key holds: zero when absent or null; other types throw. */
  function Current<K>(m: map<K, Option<Number>>, key: K): (r: Result<real>)
    ensures r.Thrown? <==> Held(m, key) == Some(Unsupported)
    ensures Held(m, key).None? ==> r == Ok(0.0)
    ensures Held(m, key).Some? && Held(m, key).value.Decimal? ==> r == Ok(Held(m, key).value.d)
    ensures Held(m, key).Some? && Held(m, key).value.LongValue? ==> r == Ok(Held(m, key).value.n as real)
  {
    var h: Option<Number> := Held(m, key);
    match h
    case None => Ok(0.0)
    case Some(Decimal(d)) => Ok(d)
    case Some(LongValue(n)) => Ok(n as real)
    case Some(Unsupported) => Thrown(IllegalArgument)
  }

  /**
   * `addToBigDecimalInMap`: the key's number plus the addend, stored back as a decimal and
   * returned. A null or zero addend returns the current number and leaves the map alone.
   */
  function AddToBigDecimalInMap<K>(m: map<K, Option<Number>>, key: K, add: Option<real>): (r: Result<(real, map<K, Option<Number>>)>)
    ensures r.Thrown? <==> Held(m, key) == Some(Unsupported)
    ensures r.Thrown? ==> r.error == IllegalArgument
    ensures r.Ok? ==> r.value.0 == Current(m, key).value + add.GetOr(0.0)
    ensures r.Ok? && (add.None? || add.value == 0.0) ==> r.value.1 == m
    ensures r.Ok? && add.Some? && add.value != 0.0 ==> r.value.1 == m[key := Some(Decimal(r.value.0))]
  {
    match Current(m, key)
    case Thrown(e) => Thrown(e)
    case Ok(cur) =>
      if add.None? || add.value == 0.0 then Ok((cur, m))
      else Ok((cur + add.value, m[key := Some(Decimal(cur + add.value))]))
  }

  /** A zero addend on an absent key leaves the key absent and returns zero. */
  lemma AddZeroKeepsAbsent<K>(m: map<K, Option<Number>>, key: K)
    requires key !in m
    ensures AddToBigDecimalInMap(m, key, Some(0.0)) == Ok((0.0, m))
    ensures AddToBigDecimalInMap(m, key, None) == Ok((0.0, m))
  {
  }

  function Sum(xs: seq<real>): real
  {
    if |xs| == 0 then 0.0 else xs[0] + Sum(xs[1..])
  }

  /** Calls the accumulator once per addend, returning the last result. */
  function Accumulate<K>(m: map<K, Option<Number>>, key: K, adds: seq<real>): Result<(real, map<K, Option<Number>>)>
    decreases |adds|
  {
    if |adds| == 0 then
      match Current(m, key)
      case Thrown(e) => Thrown(e)
      case Ok(cur) => Ok((cur, m))
    else
      match AddToBigDecimalInMap(m, key, Some(adds[0]))
      case Thrown(e) => Thrown(e)
      case Ok((_, m1)) => Accumulate(m1, key, adds[1..])
  }

  /** Repeated calls total the addends on top of the number the key held, whatever zeros occur. */
  lemma {:induction false} AccumulateSums<K>(m: map<K, Option<Number>>, key: K, adds: seq<real>)
    requires Current(m, key).Ok?
    ensures Accumulate(m, key, adds).Ok?
    ensures Accumulate(m, key, adds).value.0 == Current(m, key).value + Sum(adds)
    decreases |adds|
  {
    if |adds| > 0 {
      var r := AddToBigDecimalInMap(m, key, Some(adds[0]));
      var m1 := r.value.1;
      assert Current(m1, key) == Ok(Current(m, key).value + adds[0]);
      AccumulateSums(m1, key, adds[1..]);
    }
  }
}

=== FILE: util_numbers.dfy ===
/**
 * The integer coercions of OFBiz's `UtilMisc`: `toIntegerObject`, `toInteger`, `toLongObject` and
 * `toLong`.
 *
 * Java's `int` and `long` are unbounded integers here, kept in range explicitly; the narrowing a
 * `Number` undergoes (`intValue`, `longValue`) is written out as two's-complement wrap-around.
 */
module UtilNumbers {
  import opened Nullable

  const TwoTo31: int := 0x8000_0000
  const TwoTo32: int := 0x1_0000_0000
  const TwoTo63: int := 0x8000_0000_0000_0000
  const TwoTo64: int := 0x1_0000_0000_0000_0000

  predicate InInt(x: int) {
    -TwoTo31 <= x < TwoTo31
  }

  predicate InLong(x: int) {
    -TwoTo63 <= x < TwoTo63
  }

  /** The low 32 bits of `x` read as a signed `int`. */
  function Wrap32(x: int): (r: int)
    ensures InInt(r) && (x - r) % TwoTo32 == 0
  {
    (x + TwoTo31) % TwoTo32 - TwoTo31
  }

  /** The low 64 bits of `x` read as a signed `long`. */
  function Wrap64(x: int): (r: int)
    ensures InLong(r) && (x - r) % TwoTo64 == 0
  {
    (x + TwoTo63) % TwoTo64 - TwoTo63
  }

  /** Narrowing leaves a value that already fits alone. */
  lemma WrapIdentity(x: int)
    ensures InInt(x) ==> Wrap32(x) == x
    ensures InLong(x) ==> Wrap64(x) == x
  {
  }

  /** Discards the fraction, rounding toward zero, as a `BigDecimal` does when narrowed. */
  function Truncate(d: real): (r: int)
    ensures 0.0 <= d ==> r as real <= d < r as real + 1.0
    ensures d < 0.0 ==> r as real - 1.0 < d <= r as real
  {
    if d >= 0.0 then d.Floor else -((-d).Floor)
  }

  // ---- Integer.parseInt / Long.parseLong ---------------------------------------------------

  predicate IsDigit(c: char) {
    '0' <= c <= '9'
  }

  predicate AllDigits(s: string) {
    forall i :: 0 <= i < |s| ==> IsDigit(s[i])
  }

  /** The value of a string of decimal digits. */
  function DigitsValue(s: string): nat
    requires AllDigits(s)
  {
    if |s| == 0 then 0 else DigitsValue(s[..|s| - 1]) * 10 + (s[|s| - 1] - '0') as nat
  }

  /** What follows a numeral's optional leading `-` or `+`. */
  function Unsigned(s: string): (r: string)
    ensures |s| > 0 && (s[0] == '-' || s[0] == '+') ==> r == s[1..]
    ensures |s| == 0 || (s[0] != '-' && s[0] != '+') ==> r == s
  {
    if |s| > 0 && (s[0] == '-' || s[0] == '+') then s[1..] else s
  }

  /** A signed decimal numeral: an optional `-` or `+`, then at least one ASCII digit. */
  predicate IsNumeral(s: string) {
    |Unsigned(s)| > 0 && AllDigits(Unsigned(s))
  }

  /** The value a numeral denotes: its digits' value, negated after a `-`. */
  function NumeralValue(s: string): int
    requires IsNumeral(s)
  {
    if s[0] == '-' then 0 - (DigitsValue(Unsigned(s)) as int) else DigitsValue(Unsigned(s))
  }

  /**
   * Parses a signed decimal numeral whose value must lie in `[lo, hi]`; anything else fails as
   * Java's `NumberFormatException` does.
   */
  function ParseSigned(s: string, lo: int, hi: int): (r: Option<int>)
    ensures r.Some? <==> IsNumeral(s) && lo <= NumeralValue(s) <= hi
    ensures r.Some? ==> r.value == NumeralValue(s)
  {
    if |s| == 0 then None
    else
      var digits := if s[0] == '-' || s[0] == '+' then s[1..] else s;
      if |digits| == 0 || !AllDigits(digits) then None
      else
        var v: int := if s[0] == '-' then 0 - (DigitsValue(digits) as int) else DigitsValue(digits);
        if lo <= v <= hi then Some(v) else None
  }

  /**
   * Any character other than a digit fails the parse, except a sign in front of at least one
   * more character: so "", "-", "+", "12a", " 1" and "1.0" all give null.
   */
  lemma NonNumeralFails(s: string, i: int, lo: int, hi: int)
    requires 0 <= i < |s| && !IsDigit(s[i])
    requires i == 0 ==> (s[0] != '-' && s[0] != '+') || |s| == 1
    ensures ParseSigned(s, lo, hi).None?
  {
    if i > 0 && (s[0] == '-' || s[0] == '+') {
      assert Unsigned(s)[i - 1] == s[i];
    } else if i > 0 {
      assert Unsigned(s)[i] == s[i];
    } else if s[0] != '-' && s[0] != '+' {
      assert Unsigned(s)[0] == s[0];
    }
  }

  /** `Integer.parseInt(s)` on ASCII digits. */
  function ParseInt(s: string): (r: Option<int>)
    ensures r.Some? <==> IsNumeral(s) && InInt(NumeralValue(s))
    ensures r.Some? ==> r.value == NumeralValue(s)
  {
    ParseSigned(s, -TwoTo31, TwoTo31 - 1)
  }

  /** `Long.parseLong(s)` on ASCII digits. */
  function ParseLong(s: string): (r: Option<int>)
    ensures r.Some? <==> IsNumeral(s) && InLong(NumeralValue(s))
    ensures r.Some? ==> r.value == NumeralValue(s)
  {
    ParseSigned(s, -TwoTo63, TwoTo63 - 1)
  }

  // ---- Integer.toString / Long.toString ----------------------------------------------------

  function DigitChar(d: int): char
    requires 0 <= d <= 9
  {
    ('0' as int + d) as char
  }

  /** The decimal digits of `n` without leading zeros. */
  function NatString(n: nat): string
  {
    if n < 10 then [DigitChar(n)] else NatString(n / 10) + [DigitChar(n % 10)]
  }

  /** Java's decimal `toString` of an integer. */
  function DecimalString(n: int): string
  {
    if n < 0 then "-" + NatString(-n) else NatString(n)
  }

  lemma {:induction false} NatStringDigits(n: nat)
    ensures |NatString(n)| > 0 && AllDigits(NatString(n))
    ensures DigitsValue(NatString(n)) == n
    decreases n
  {
    var s := NatString(n);
    if n >= 10 {
      NatStringDigits(n / 10);
      assert s[..|s| - 1] == NatString(n / 10);
    }
  }

  /** Parsing the decimal string of any `int` gives the `int` back. */
  lemma ParseIntRoundTrip(n: int)
    requires InInt(n)
    ensures ParseInt(DecimalString(n)) == Some(n)
  {
    ParseSignedRoundTrip(n, -TwoTo31, TwoTo31 - 1);
  }

  /** Parsing the decimal string of any `long` gives the `long` back. */
  lemma ParseLongRoundTrip(n: int)
    requires InLong(n)
    ensures ParseLong(DecimalString(n)) == Some(n)
  {
    ParseSignedRoundTrip(n, -TwoTo63, TwoTo63 - 1);
  }

  lemma ParseSignedRoundTrip(n: int, lo: int, hi: int)
    requires lo <= n <= hi
    ensures ParseSigned(DecimalString(n), lo, hi) == Some(n)
  {
    if n < 0 {
      NatStringDigits(-n);
      assert ("-" + NatString(-n))[1..] == NatString(-n);
    } else {
      NatStringDigits(n);
      assert NatString(n)[0] != '-' && NatString(n)[0] != '+';
    }
  }

  /** An unsigned numeral of eleven digits without a leading zero lies beyond every `int`. */
  lemma ParseIntOverflow(s: string)
    requires |s| == 11 && AllDigits(s) && s[0] != '0'
    ensures ParseInt(s).None?
  {
    LeadingDigitBound(s);
  }

  lemma {:induction false} LeadingDigitBound(s: string)
    requires |s| > 0 && AllDigits(s) && s[0] != '0'
    ensures DigitsValue(s) >= Pow10(|s| - 1)
    decreases |s|
  {
    if |s| > 1 {
      LeadingDigitBound(s[..|s| - 1]);
    }
  }

  function Pow10(k: nat): nat
  {
    if k == 0 then 1 else 10 * Pow10(k - 1)
  }

  // ---- toIntegerObject, toInteger, toLongObject, toLong ------------------------------------

  /**
   * An argument of the coercions: an `Integer`, a `Long`, a `BigDecimal`, or any other object,
   * known by its `toString`.
   */
  datatype JavaObject = JInteger(i: int) | JLong(n: int) | JBigDecimal(d: real) | Other(text: string)

  predicate WellTyped(o: JavaObject) {
    match o
    case JInteger(i) => InInt(i)
    case JLong(n) => InLong(n)
    case _ => true
  }

  /**
   * `toIntegerObject`: null for null; an `Integer` as it is; any other `Number` narrowed by
   * `intValue`; anything else parsed from its string form, null when that fails.
   */
  function ToIntegerObject(obj: Option<JavaObject>): (r: Option<int>)
    requires obj.Some? ==> WellTyped(obj.value)
    ensures r.Some? ==> InInt(r.value)
    ensures obj.None? ==> r.None?
    ensures obj.Some? && obj.value.JInteger? ==> r == Some(obj.value.i)
    ensures obj.Some? && obj.value.JLong? ==> r == Some(Wrap32(obj.value.n))
    ensures obj.Some? && obj.value.JBigDecimal? ==> r == Some(Wrap32(Truncate(obj.value.d)))
    ensures obj.Some? && obj.value.Other? ==>
      (r.Some? <==> IsNumeral(obj.value.text) && InInt(NumeralValue(obj.value.text)))
    ensures obj.Some? && obj.value.Other? && r.Some? ==> r.value == NumeralValue(obj.value.text)
  {
    match obj
    case None => None
    case Some(JInteger(i)) => Some(i)
    case Some(JLong(n)) => Some(Wrap32(n))
    case Some(JBigDecimal(d)) => Some(Wrap32(Truncate(d)))
    case Some(Other(text)) => ParseInt(text)
  }

  /** `toInteger`: the coerced value, zero when the coercion gives null. */
  function ToInteger(obj: Option<JavaObject>): (r: int)
    requires obj.Some? ==> WellTyped(obj.value)
    ensures InInt(r)
    ensures ToIntegerObject(obj).None? ==> r == 0
    ensures ToIntegerObject(obj).Some? ==> r == ToIntegerObject(obj).value
  {
    ToIntegerObject(obj).GetOr(0)
  }

  /**
   * `toLongObject`: null for null; a `Long` as it is; any other `Number` converted by
   * `longValue`; anything else parsed from its string form, null when that fails.
   */
  function ToLongObject(obj: Option<JavaObject>): (r: Option<int>)
    requires obj.Some? ==> WellTyped(obj.value)
    ensures r.Some? ==> InLong(r.value)
    ensures obj.None? ==> r.None?
    ensures obj.Some? && obj.value.JLong? ==> r == Some(obj.value.n)
    ensures obj.Some? && obj.value.JInteger? ==> r == Some(obj.value.i)
    ensures obj.Some? && obj.value.JBigDecimal? ==> r == Some(Wrap64(Truncate(obj.value.d)))
    ensures obj.Some? && obj.value.Other? ==>
      (r.Some? <==> IsNumeral(obj.value.text) && InLong(NumeralValue(obj.value.text)))
    ensures obj.Some? && obj.value.Other? && r.Some? ==> r.value == NumeralValue(obj.value.text)
  {
    match obj
    case None => None
    case Some(JInteger(i)) => Some(i)
    case Some(JLong(n)) => Some(n)
    case Some(JBigDecimal(d)) => Some(Wrap64(Truncate(d)))
    case Some(Other(text)) => ParseLong(text)
  }

  /** `toLong`: the coerced value, zero when the coercion gives null. */
  function ToLong(obj: Option<JavaObject>): (r: int)
    requires obj.Some? ==> WellTyped(obj.value)
    ensures InLong(r)
    ensures ToLongObject(obj).None? ==> r == 0
    ensures ToLongObject(obj).Some? ==> r == ToLongObject(obj).value
  {
    ToLongObject(obj).GetOr(0)
  }

  /** A string holding an integer's decimal form coerces back to that integer. */
  lemma CoerceDecimalString(n: int)
    ensures InInt(n) ==> ToIntegerObject(Some(Other(DecimalString(n)))) == Some(n)
    ensures InLong(n) ==> ToLongObject(Some(Other(DecimalString(n)))) == Some(n)
  {
    if InInt(n) {
      ParseIntRoundTrip(n);
    }
    if InLong(n) {
      ParseLongRoundTrip(n);
    }
  }

  /** A `Long` narrowed to an `int` keeps only its low 32 bits, while the reverse widening is exact. */
  lemma NarrowingWraps(n: int)
    requires InLong(n)
    ensures ToIntegerObject(Some(JLong(n))) == Some(Wrap32(n))
    ensures InInt(n) ==> ToIntegerObject(Some(JLong(n))) == Some(n)
    ensures ToIntegerObject(Some(JLong(TwoTo31))) == Some(-TwoTo31)
    ensures InInt(n) ==> ToLongObject(Some(JInteger(n))) == Some(n)
  {
    WrapIdentity(n);
  }

  /** A decimal narrows by truncation toward zero: `-2.5` becomes `-2`, `2.5` becomes `2`. */
  lemma DecimalTruncates()
    ensures ToIntegerObject(Some(JBigDecimal(-2.5))) == Some(-2)
    ensures ToLongObject(Some(JBigDecimal(2.5))) == Some(2)
  {
    assert (2.5).Floor == 2;
  }
}
